=== FILE: README.md ===
# bperf core in Dafny

This project models the deterministic core of bperf, a small tool that
compares the F1 scores of two binary classifiers with Bayesian inference.

- `encoding.dfy` (module `Encoding`): the outcome encoder of
  `build_model_paired` and `build_model_unpaired`. Each example gets one of
  four codes from the map (neg,neg)->0, (neg,pos)->1, (pos,neg)->2,
  (pos,pos)->3. The codes are split by ground truth (paired scheme) or taken
  per predictor (unpaired scheme) and counted into length-4 vectors.
- `posterior.dfy` (module `Posterior`): the distribution parameters each
  `model_type` declares. Types 0-2 declare a flat prior Beta(1,1) and
  Dirichlet(1,1,1,1); types 1 and 2 also attach observations. Type 3
  declares the conjugate posterior Beta(1+num_p, 1+num_n), Dirichlet(1+cnt_p)
  and Dirichlet(1+cnt_n). The unpaired scheme declares Dirichlet(1+cnt_a)
  and Dirichlet(1+cnt_b).
- `derived.dfy` (module `Derived`): the deterministic quantities declared on
  top of the latents: the confusion cells tp/fn/fp/tn, precision, recall,
  F1 = 2PR/(P+R) and delta = F1_a - F1_b. The latents `mu` and `theta_*` are
  plain inputs (one draw), and the arithmetic is exact over `real`.
- `decision.dfy` (module `Decision`): `decision(hdi, rope)`, the six-way
  ROPE rule ('=', '<<', '>>', '<', '>', '?'), where the first test that
  holds wins.
- `summary.dfy` (module `Summary`): the sample fractions `post_summary`
  records (`pct_cmp_val`, `pct_in_rope`, the decision), and the win counts
  `[sum(a<b), sum(a>b)]` that `micro_s_test` and `macro_s_test` pass to the
  binomial test.
- `wrappers.dfy` (module `Wrappers`): `Option` and `Result`.

Notes on behaviour:

- Encoding has no emptiness or length check. `zip` truncates, and the
  zipped list is then indexed up to `len(y_true)`. So the only failure is an
  index error when a prediction vector is shorter than `y_true`. Longer
  predictions are cut, and N = 0 gives all-zero counts.
- Precision, recall and F1 divide without a guard. They are not defined as
  0 on a zero denominator, so the model requires non-zero denominators.
- `pct_lt` is `1 - pct_gt`, so ties with the comparison value count toward
  `pct_lt`. They are not excluded from both fractions.

## Model

| member | source | states |
|---|---|---|
| Encoding.OutCode | bperf_model.py:10-15 | the code of a pair decodes back to that pair, so distinct pairs get distinct codes in 0..3 |
| Encoding.OutCodeOnto | bperf_model.py:10-15 | every code 0..3 is the code of the pair it decodes to, so the map is a bijection |
| Encoding.CountTrue | bperf_model.py:20 | `num_p` is the multiplicity of `true` in `y_true` and is at most N |
| Encoding.PairCodes | bperf_model.py:8-16 | one code per example, and it decodes to that example's (A, B) predictions |
| Encoding.PairedGroup | bperf_model.py:8-17 | `out_p` (`out_n`) holds num_p (N - num_p) codes, including the code of every positive (negative) example's (A, B) predictions |
| Encoding.PairedGroupContents | bperf_model.py:8-17 | code k occurs in `out_p` (`out_n`) once for each positive (negative) example whose (A, B) predictions have code k |
| Encoding.Select | bperf_model.py:16-17 | the group of a ground-truth class contains the code of every example of that class |
| Encoding.SelectLength | bperf_model.py:16-21 | a group holds num_p codes for the positive class and N - num_p for the negative class |
| Encoding.SelectContents | bperf_model.py:16-17 | code k occurs in a group once for each example of that class whose code is k |
| Encoding.SelectPartition | bperf_model.py:16-17 | the positive and negative groups together hold exactly the multiset of all codes |
| Encoding.CountCodeMultiplicity | bperf_model.py:18-19 | `Encoding.CountCode`, the model of `sum(out == k)`, is the multiplicity of k among the codes |
| Encoding.Histogram | bperf_model.py:18-19 | the count vector has length 4 and entry k is the multiplicity of code k |
| Encoding.HistogramTotal | bperf_model.py:18-19 | a count vector sums to the number of codes counted |
| Encoding.EncodePaired | bperf_model.py:6-21 | fails exactly when a prediction vector is shorter than `y_true`; otherwise two length-4 count vectors, num_p counts the true labels and num_p + num_n = N; what each count counts is in `Encoding.PairedCountsContents` |
| Encoding.PairedCountsSum | bperf_model.py:16-21 | `cnt_p` sums to `num_p` and `cnt_n` sums to `num_n` |
| Encoding.PairedCountsContents | bperf_model.py:8-19 | `cnt_p[k]` is the number of positive examples whose (A, B) predictions have code k, and `cnt_n[k]` the same over the negative examples |
| Encoding.PairedCountsCover | bperf_model.py:16-19 | `cnt_p[k] + cnt_n[k]` is the number of examples with code k, so each example lands in exactly one group |
| Encoding.PairedSwap | bperf_model.py:8-21 | encoding (B, A) instead of (A, B) exchanges codes 1 and 2 in both count vectors and keeps the class sizes |
| Encoding.PairedExample | bperf_model.py:6-21 | truth [T,T,F,F], A [T,F,F,F], B [T,T,F,T] gives cnt_p = [0,1,0,1], cnt_n = [1,1,0,0], num_p = num_n = 2 |
| Encoding.EncodeUnpaired | bperf_model.py:67-81 | fails exactly when a prediction vector is shorter than `y_true`; otherwise gives two length-4 count vectors |
| Encoding.UnpairedCodes | bperf_model.py:69-79 | one code per example of `y_true`, decoding to that example's (truth, prediction) pair |
| Encoding.UnpairedContents | bperf_model.py:69-79 | code k occurs once for each example whose (truth, prediction) pair has code k |
| Encoding.UnpairedCountsContents | bperf_model.py:69-81 | `cnt_a[k]` (`cnt_b[k]`) is the number of examples whose (truth, A) ((truth, B)) pair has code k |
| Encoding.PositiveCodesCountTruth | bperf_model.py:78-81 | with truth as the first component, codes 2 and 3 together count the true labels |
| Encoding.UnpairedCountsSum | bperf_model.py:78-81 | `cnt_a` and `cnt_b` each sum to N, and for both, cnt[2] + cnt[3] is the number of true labels |
| Encoding.UnpairedIsMarginalOfPaired | bperf_model.py:69-81 | each unpaired count is a sum of two paired counts: A's predicted-positive codes are {2,3} and B's are {1,3} |
| Posterior.ParseModelType | bperf_model.py:24-39 | exactly the model types 0..3 are recognised |
| Posterior.FlatUpdate | bperf_model.py:42-44 | Dirichlet(1 + cnt) is proper and its total concentration is 4 plus the number of observations |
| Posterior.BuildPaired | bperf_model.py:6-44 | `model_type` defaults to 3; fails exactly on an index error or an unknown model type; types 0-2 declare the flat prior; only types 1 and 2 attach observations: type 1 observes `y_true`, `out_p` and `out_n`, type 2 a Binomial of size N with num_p successes and num_p + num_n = N |
| Posterior.DirectPosteriorIsConjugateUpdate | bperf_model.py:24-44 | type 3's parameters are type 2's flat prior updated by type 2's observations (Beta by num_p successes and N - num_p failures of the size-N Binomial, each Dirichlet by its Multinomial counts), and type 1 observes `y_true` itself with groups of the same counts |
| Posterior.DirectPosteriorParams | bperf_model.py:41-44 | the default call (model type 3) declares Beta(1+num_p, 1+num_n), Dirichlet(1+cnt_p) and Dirichlet(1+cnt_n) over the encoder's counts |
| Posterior.DirectPosteriorCounts | bperf_model.py:16-44 | entry k of theta_p's parameters is 1 plus the number of positive examples with code k, and the same for theta_n over the negatives |
| Posterior.PairedPosteriorConcentration | bperf_model.py:41-44 | Beta(1+num_p, 1+num_n) totals 2 + N, and the two Dirichlets are proper with totals 4 + num_p and 4 + num_n |
| Posterior.BuildUnpaired | bperf_model.py:67-90 | fails exactly on an index error; otherwise theta_a and theta_b are the flat Dirichlet updated by `cnt_a` and `cnt_b`, and both are proper |
| Posterior.UnpairedPosteriorConcentration | bperf_model.py:88-90 | each unpaired Dirichlet totals 4 + N, and its truth-positive entries total 2 + num_p |
| Posterior.UnpairedPosteriorEntry | bperf_model.py:88-90 | entry k of each unpaired Dirichlet is 1 plus that predictor's count of code k |
| Posterior.UnpairedPosteriorCounts | bperf_model.py:78-90 | entry k of theta_a's (theta_b's) parameters is 1 plus the number of examples whose (truth, A) ((truth, B)) pair has code k |
| Derived.PairedCellsA | bperf_model.py:46-52 | for a probability `mu` and simplex thetas, A's cells form a distribution with tp + fn = mu and fp + tn = 1 - mu |
| Derived.PairedCellsB | bperf_model.py:56-59 | the same for B's cells |
| Derived.PairedCellsMatchReference | bperf_model.py:49-59 | the written-out cells equal the reference cells built from "predictor predicts positive in code k" |
| Derived.PairedCellsSwap | bperf_model.py:49-59 | exchanging codes 1 and 2 in both thetas exchanges A's and B's cells |
| Derived.UnpairedCells | bperf_model.py:95-98 | the cell of an example with truth t and prediction p carries theta at code (t, p), and the cells form a distribution for a simplex theta |
| Derived.Precision | bperf_model.py:53 | for non-negative cells, precision is in [0,1] and equals 1 exactly when fp = 0 |
| Derived.Recall | bperf_model.py:54 | for non-negative cells, recall is in [0,1] and equals 1 exactly when fn = 0 |
| Derived.HarmonicBetween | bperf_model.py:47 | 2PR/(P+R) lies between min(P,R) and max(P,R) for non-negative P, R |
| Derived.F1 | bperf_model.py:47 | F1 lies between P and R, so it is a probability when both are |
| Derived.F1IsHarmonicMean | bperf_model.py:47 | 1/F1 is the mean of 1/P and 1/R |
| Derived.F1Score | bperf_model.py:55 | a predictor's F1 is in [0,1] for non-negative cells |
| Derived.DefinedIffTruePositives | bperf_model.py:53-55 | for non-negative cells, P, R and F1 are all defined exactly when tp > 0 |
| Derived.F1FromCells | bperf_model.py:53-55 | F1 equals 2tp / (2tp + fp + fn) |
| Derived.PairedDelta | bperf_model.py:64 | delta lies in [-1, 1] for valid latents |
| Derived.PairedDeltaSwap | bperf_model.py:49-64 | exchanging the predictors keeps every ratio defined and negates delta |
| Derived.UnpairedDelta | bperf_model.py:110 | the unpaired delta lies in [-1, 1] for simplex thetas |
| Derived.MarginalTheta | bperf_model.py:46-59 | the construction `Derived.MarginalCellsArePairedCells` relates to the paired cells: one predictor's joint (truth, prediction) mass under the paired latents, mu (or 1 - mu) times that predictor's marginal predicted mass within the class |
| Derived.MarginalCellsArePairedCells | bperf_model.py:49-105 | the unpaired cells read from a predictor's marginal theta are that predictor's paired cells, and the marginal theta is a simplex for valid latents |
| Derived.MarginalDeltaIsPairedDelta | bperf_model.py:49-110 | the unpaired delta of the two marginal thetas is defined and equals the paired delta |
| Decision.Symbol | bperf_stats.py:48-59 | every label is one of '=', '<<', '>>', '<', '>', '?' |
| Decision.ParseSymbol | bperf_stats.py:48-59 | exactly the six decision strings are recognised |
| Decision.SymbolRoundTrip | bperf_stats.py:48-59 | reading a label's symbol back gives the label |
| Decision.Decide | bperf_stats.py:48-59 | '=' exactly when the rope contains the hdi; '<' implies a lower midpoint, '>' a higher one, and '?' equal midpoints |
| Decision.DecideCases | bperf_stats.py:49-59 | each of '<<', '>>', '<', '>' and '?' holds exactly when its test passes and all earlier tests fail |
| Decision.ContainmentExclusive | bperf_stats.py:49-54 | an hdi both wholly below and wholly above the rope is one point equal to a one-point rope, so '=' has already fired |
| Decision.DecideMirror | bperf_stats.py:48-59 | negating both intervals maps '<<' and '>>' to each other, '<' and '>' to each other, and keeps '=' and '?' |
| Decision.FarLabelsAgreeWithMidpoints | bperf_stats.py:51-54 | for ordered intervals, '<<' implies hdi midpoint <= rope midpoint, and '>>' implies >= |
| Decision.UndecidedGeometry | bperf_stats.py:55-59 | for ordered intervals, '?' holds exactly when the midpoints are equal and the hdi is strictly wider, with the rope strictly inside it |
| Summary.Count | bperf_stats.py:25 | a count of samples passing a test is at most the sample size; what it counts is in `Summary.CountPositions` |
| Summary.CountAppend | bperf_stats.py:25 | appending a sample adds one to the count exactly when that sample passes the test |
| Summary.CountPositions | bperf_stats.py:25 | `np.sum` of the mask is the number of positions whose sample passes the test |
| Summary.AboveCountsPositions | bperf_stats.py:25 | `np.sum(sample > cmp_val)` is the number of positions whose sample is strictly above `cmp_val` |
| Summary.InsideCountsPositions | bperf_stats.py:31 | `np.sum((sample > rope[0]) & (sample < rope[1]))` is the number of positions whose sample lies strictly inside the rope |
| Summary.CountComplement | bperf_stats.py:25-26 | complementary tests split the sample: their counts add up to its size |
| Summary.CountDisjointUnion | bperf_stats.py:31 | the count of a disjoint union of tests is the sum of their counts |
| Summary.CountNothing | bperf_stats.py:31 | a test nothing passes counts 0 |
| Summary.Fraction | bperf_stats.py:25 | `float(count)/len(sample)` is in [0,1] and times the size gives the count back |
| Summary.PctCmpVal | bperf_stats.py:24-28 | fails exactly on an empty sample; otherwise both fractions are in [0,1], they sum to 1, and `pct_gt` is the share strictly above `cmp_val` |
| Summary.PctLtCountsTies | bperf_stats.py:25-26 | `pct_lt` is the share of samples at most `cmp_val`, so ties count toward it |
| Summary.PctInRope | bperf_stats.py:30-33 | fails exactly on an empty sample; otherwise it is the share strictly inside the rope, in [0,1], and 0 when rope[0] >= rope[1] |
| Summary.EmptyRopeHoldsNothing | bperf_stats.py:31 | no sample lies strictly inside a rope with rope[0] >= rope[1] |
| Summary.InsideIsAboveMinusAtLeast | bperf_stats.py:31 | for rope[0] < rope[1], the samples inside are those above rope[0] minus those at or above rope[1] |
| Summary.Summarize | bperf_stats.py:9-36 | `cred_mass` defaults to 0.95 and `cmp_val` and `rope` to none; fails exactly when a fraction of an empty sample is requested; an entry is present exactly when its argument is; `pct_cmp_val` is `Summary.PctCmpVal`'s pair, `pct_in_rope` is `Summary.PctInRope`'s value, and the decision is `Decision.Decide(hdi, rope)` |
| Summary.SummarizeDefaults | bperf_stats.py:9-22 | with the default arguments the summary records cred_mass 0.95 and the hdi, and no comparison or ROPE entry |
| Summary.CmpPart | bperf_stats.py:24-28 | the `cmp_val` block: absent without a comparison value, ZeroDivision on an empty sample, otherwise `Summary.PctCmpVal`'s pair |
| Summary.RopePart | bperf_stats.py:30-34 | the `rope` block: absent without a ROPE, ZeroDivision on an empty sample, otherwise `Summary.PctInRope`'s value and `Decision.Decide(hdi, rope)` |
| Summary.Broadcast | bperf_stats.py:62 | equal-length vectors pass through unchanged, a length-1 vector is repeated against every entry of the other, which passes through, and any other shapes are an error |
| Summary.Wins | bperf_stats.py:62 | the first count is the number of positions with a < b, the second with a > b, and with the ties they add up to the number of positions |
| Summary.Ties | bperf_stats.py:62 | the number of ties is the number of positions where the two scores are equal |
| Summary.WinsSwap | bperf_stats.py:62 | exchanging the vectors exchanges the two win counts |
| Summary.SignCounts | bperf_stats.py:61-71 | fails exactly on shapes numpy cannot broadcast; otherwise the counts are the numbers of a < b and a > b, position by position for equal lengths and against every score of the other side when one side has a single score |
| Summary.BroadcastWins | bperf_stats.py:62 | the win counts of the broadcast vectors count, over the original vectors, the positions (or the other side's scores) where A is lower and higher |
| Summary.SignCountsSwap | bperf_stats.py:69-71 | the sign-test counts (the same expression in the micro and macro tests) are exchanged when A and B are exchanged |
| Summary.SignCountsExample | bperf_stats.py:61-63 | [1,1,1,0] against [0,0,1,1] gives 1 lower-win and 2 higher-wins; the tie counts for neither |

## Left out

- `learn_model` (MAP search and Metropolis sampling). It belongs to the external probabilistic engine, so the latents are plain inputs to `Derived`.
- Likelihood evaluation for model types 1 and 2. The model records the observations these types attach. The engine's inference from them is not modelled.
- `pm.stats.hpd` (the highest-density interval) and `pm.stats.mc_error`. They are library internals, so `Summarize` takes the hdi as an input.
- mean, std, median and mode in `post_summary`. They are floating-point wrappers over numpy and scipy.
- `bfsd`, the Savage-Dickey Bayes factor. It uses a scipy Gaussian KDE over floating point.
- The p-values of `binom_test`, `ttest_ind` and `ttest_rel`, including `micro_t_test` and `macro_t_test`. Only the win counts fed to the binomial test are modelled.
- `interval_str`, `pct_cmp_val_str` and `post_analysis`. These are string formatting and the `burn` slice of the trace.
- All of `bperf_plot.py`, which is matplotlib rendering.
- Floating-point rounding, NaN and infinity. The arithmetic is exact over `real`. A ratio the source would compute as NaN or infinity is excluded by its requires clause.
- Non-boolean labels and non-1-D score arrays. Inputs are `seq<bool>` and `seq<real>`.
- Decision.Decide: its ensures gives the '=' case and the midpoint consequences only. The full first-match characterisation of the other labels is in `Decision.DecideCases`.
- Summary.Summarize: its failure condition covers only the two fraction divisions by `len(sample)`. `np.mean`, `np.std`, `np.median`, `stats.mode`, `mc_error` and `hpd` also run on the sample (bperf_stats.py:12-20), and what they do on an empty sample is numpy's and the engine's behaviour, which is not modelled.
- Encoding.Select: its ensures gives membership only. The group size is proved in `Encoding.SelectLength` and the count of each code in `Encoding.SelectContents`, which keeps the recursive function cheap to unfold.
- Encoding.EncodePaired: its ensures gives the shape and num_p only. What each entry of `cnt_p` and `cnt_n` counts is proved in `Encoding.PairedCountsContents`, and their sums in `Encoding.PairedCountsSum`.
- Encoding.EncodeUnpaired: its ensures gives the shape only. What each entry of `cnt_a` and `cnt_b` counts is proved in `Encoding.UnpairedCountsContents`.

=== FILE: decision.dfy ===
/**
 The ROPE decision rule `decision(hdi, rope)`: compares the highest-density
 interval of a posterior with a region of practical equivalence and names
 the relation with one of six labels. The tests are applied in order and
 the first that holds wins.
 */
module Decision {
  import opened Wrappers

  /** A pair `(lo, hi)` as the source indexes it: `[0]` and `[1]`. Nothing
      forces `lo <= hi`. */
  datatype Interval = Interval(lo: real, hi: real)

  /** The six decision labels. */
  datatype Label =
    | Equivalent   // '='
    | FarBelow     // '<<'
    | FarAbove     // '>>'
    | Below        // '<'
    | Above        // '>'
    | Undecided    // '?'

  /** The string the source returns for each label. */
  function Symbol(l: Label): (s: string)
    ensures s in {"=", "<<", ">>", "<", ">", "?"}
  {
    match l
    case Equivalent => "="
    case FarBelow => "<<"
    case FarAbove => ">>"
    case Below => "<"
    case Above => ">"
    case Undecided => "?"
  }

  /** Reads a decision string back. */
  function ParseSymbol(s: string): (l: Option<Label>)
    ensures l.Some? <==> s in {"=", "<<", ">>", "<", ">", "?"}
  {
    if s == "=" then Some(Equivalent)
    else if s == "<<" then Some(FarBelow)
    else if s == ">>" then Some(FarAbove)
    else if s == "<" then Some(Below)
    else if s == ">" then Some(Above)
    else if s == "?" then Some(Undecided)
    else None
  }

  /** Each label has its own symbol, so the six outcomes are distinguishable. */
  lemma SymbolRoundTrip(l: Label)
    ensures ParseSymbol(Symbol(l)) == Some(l)
  {
  }

  /** The rope contains the hdi (and the hdi is well ordered). */
  predicate Inside(hdi: Interval, rope: Interval) {
    rope.lo <= hdi.lo <= hdi.hi <= rope.hi
  }

  /** The hdi lies wholly at or below the rope. */
  predicate Before(hdi: Interval, rope: Interval) {
    hdi.lo <= hdi.hi <= rope.lo <= rope.hi
  }

  /** The hdi lies wholly at or above the rope. */
  predicate After(hdi: Interval, rope: Interval) {
    rope.lo <= rope.hi <= hdi.lo <= hdi.hi
  }

  /** The midpoint `(i[0] + i[1]) / 2`. */
  function Mid(i: Interval): real {
    (i.lo + i.hi) / 2.0
  }

  /** `decision(hdi, rope)`. The label is '=' exactly when the rope holds
      the hdi, and a fallback label agrees with the midpoints. */
  function Decide(hdi: Interval, rope: Interval): (l: Label)
    ensures l == Equivalent <==> Inside(hdi, rope)
    ensures l == Below ==> Mid(hdi) < Mid(rope)
    ensures l == Above ==> Mid(hdi) > Mid(rope)
    ensures l == Undecided ==> Mid(hdi) == Mid(rope)
  {
    if Inside(hdi, rope) then Equivalent
    else if Before(hdi, rope) then FarBelow
    else if After(hdi, rope) then FarAbove
    else if Mid(hdi) < Mid(rope) then Below
    else if Mid(hdi) > Mid(rope) then Above
    else Undecided
  }

  /** The full case split: each label holds exactly under its condition
      once the earlier tests have failed. */
  lemma DecideCases(hdi: Interval, rope: Interval)
    ensures Decide(hdi, rope) == FarBelow <==> !Inside(hdi, rope) && Before(hdi, rope)
    ensures Decide(hdi, rope) == FarAbove <==> !Inside(hdi, rope) && !Before(hdi, rope) && After(hdi, rope)
    ensures Decide(hdi, rope) == Below <==>
      !Inside(hdi, rope) && !Before(hdi, rope) && !After(hdi, rope) && Mid(hdi) < Mid(rope)
    ensures Decide(hdi, rope) == Above <==>
      !Inside(hdi, rope) && !Before(hdi, rope) && !After(hdi, rope) && Mid(hdi) > Mid(rope)
    ensures Decide(hdi, rope) == Undecided <==>
      !Inside(hdi, rope) && !Before(hdi, rope) && !After(hdi, rope) && Mid(hdi) == Mid(rope)
  {
  }

  /** The three containment tests never overlap once '=' has failed: an hdi
      both wholly below and wholly above the rope is a single point equal to
      a single-point rope, which the rope contains. */
  lemma ContainmentExclusive(hdi: Interval, rope: Interval)
    requires Before(hdi, rope) && After(hdi, rope)
    ensures Inside(hdi, rope) && hdi.lo == hdi.hi == rope.lo == rope.hi
  {
  }

  /** Reflection of the real line about 0 maps an interval to `(-hi, -lo)`. */
  function Negate(i: Interval): (n: Interval)
    ensures Mid(n) == -Mid(i)
  {
    Interval(-i.hi, -i.lo)
  }

  /** The label seen in the mirror. */
  function Mirror(l: Label): Label {
    match l
    case Equivalent => Equivalent
    case FarBelow => FarAbove
    case FarAbove => FarBelow
    case Below => Above
    case Above => Below
    case Undecided => Undecided
  }

  /** The rule has no bias toward either side: negating both intervals maps
      '<<' to '>>' and '<' to '>' (and back), and keeps '=' and '?'. */
  lemma DecideMirror(hdi: Interval, rope: Interval)
    ensures Decide(Negate(hdi), Negate(rope)) == Mirror(Decide(hdi, rope))
  {
    if !Inside(hdi, rope) && Before(hdi, rope) && After(hdi, rope) {
      ContainmentExclusive(hdi, rope);
    }
  }

  /** For well-ordered intervals the far labels also agree with the
      midpoints, so every label but '=' and '?' points the right way. */
  lemma FarLabelsAgreeWithMidpoints(hdi: Interval, rope: Interval)
    requires hdi.lo <= hdi.hi && rope.lo <= rope.hi
    ensures Decide(hdi, rope) == FarBelow ==> Mid(hdi) <= Mid(rope)
    ensures Decide(hdi, rope) == FarAbove ==> Mid(hdi) >= Mid(rope)
  {
  }

  /** For well-ordered intervals '?' arises exactly when the two share a
      midpoint and the hdi is strictly wider than the rope, which then sits
      strictly inside it. */
  lemma UndecidedGeometry(hdi: Interval, rope: Interval)
    requires hdi.lo <= hdi.hi && rope.lo <= rope.hi
    ensures Decide(hdi, rope) == Undecided <==>
      Mid(hdi) == Mid(rope) && hdi.hi - hdi.lo > rope.hi - rope.lo
    ensures Decide(hdi, rope) == Undecided ==> hdi.lo < rope.lo && rope.hi < hdi.hi
  {
  }
}

=== FILE: derived.dfy ===
/**
 The deterministic quantities both model builders declare on top of the
 latents: the confusion-cell masses tp/fn/fp/tn of each predictor,
 precision, recall, F1 and the difference `delta = F1_a - F1_b`.

 The latents `mu`, `theta_p`, `theta_n` (paired) and `theta_a`, `theta_b`
 (unpaired) are plain inputs here: one draw of the engine's random
 variables. Arithmetic is exact over `real`. The source divides without a
 guard, so every ratio requires its denominator to be non-zero.
 */
module Derived {
  import opened Encoding

  /** Probability masses of the four confusion-table cells of one predictor. */
  datatype Cells = Cells(tp: real, fn: real, fp: real, tn: real)

  /** The two predictors being compared. */
  datatype Predictor = A | B

  /** A value of a Beta latent such as `mu`. */
  predicate IsProbability(x: real) {
    0.0 <= x <= 1.0
  }

  /** A value of a 4-way Dirichlet latent such as `theta_p`. */
  predicate IsSimplex(theta: seq<real>) {
    && |theta| == NumCodes
    && (forall k :: 0 <= k < |theta| ==> theta[k] >= 0.0)
    && theta[0] + theta[1] + theta[2] + theta[3] == 1.0
  }

  /** All four cells are non-negative and together carry mass 1. */
  predicate IsDistribution(c: Cells) {
    && c.tp >= 0.0 && c.fn >= 0.0 && c.fp >= 0.0 && c.tn >= 0.0
    && c.tp + c.fn + c.fp + c.tn == 1.0
  }

  function Min(x: real, y: real): real {
    if x <= y then x else y
  }

  function Max(x: real, y: real): real {
    if x <= y then y else x
  }

  /** Products of non-negative reals are non-negative. */
  lemma MulNonNegative(x: real, y: real)
    ensures x >= 0.0 && y >= 0.0 ==> x * y >= 0.0
  {
  }

  /** Multiplication distributes over addition. */
  lemma Distribute(w: real, x: real, y: real)
    ensures w * x + w * y == w * (x + y)
  {
  }

  /** Multiplying by a non-negative factor preserves order. */
  lemma MulMonotone(w: real, x: real, y: real)
    requires w >= 0.0 && x <= y
    ensures w * x <= w * y
  {
    MulNonNegative(w, y - x);
    Distribute(w, y - x, x);
  }

  /** A positive factor can be cancelled from both sides of an inequality. */
  lemma CancelPositive(x: real, y: real, s: real)
    requires s > 0.0 && x * s <= y * s
    ensures x <= y
  {
  }

  /** Scaling the two halves of a unit mass by a non-negative weight: the
      halves stay non-negative and add up to the weight. */
  lemma ScaledHalves(w: real, x: real, y: real)
    ensures w >= 0.0 && x >= 0.0 && y >= 0.0 && x + y == 1.0 ==>
      w * x >= 0.0 && w * y >= 0.0 && w * x + w * y == w
  {
    MulNonNegative(w, x);
    MulNonNegative(w, y);
    Distribute(w, x, y);
  }

  // ---------------------------------------------------------------------
  // Confusion cells
  // ---------------------------------------------------------------------

  /** Whether predictor `who` predicts positive in paired outcome code `k`:
      A is the first component of the code, B the second. */
  predicate PredictsPositive(who: Predictor, k: Code) {
    if who == A then First(k) else Second(k)
  }

  /** The mass `theta` gives to the codes in which `who` predicts `positive`. */
  function MassWhere(theta: seq<real>, who: Predictor, positive: bool): real
    requires |theta| == NumCodes
  {
    (if PredictsPositive(who, 0) == positive then theta[0] else 0.0)
    + (if PredictsPositive(who, 1) == positive then theta[1] else 0.0)
    + (if PredictsPositive(who, 2) == positive then theta[2] else 0.0)
    + (if PredictsPositive(who, 3) == positive then theta[3] else 0.0)
  }

  /** A reference definition of the paired cells: a true positive is a
      positive example (mass `mu`) on which the predictor says positive,
      and so on for the other three cells. */
  function ReferenceCells(who: Predictor, mu: real, thetaP: seq<real>, thetaN: seq<real>): Cells
    requires |thetaP| == NumCodes && |thetaN| == NumCodes
  {
    Cells(mu * MassWhere(thetaP, who, true), mu * MassWhere(thetaP, who, false),
          (1.0 - mu) * MassWhere(thetaN, who, true), (1.0 - mu) * MassWhere(thetaN, who, false))
  }

  /** The cells of predictor A in the paired model, as the source writes them. */
  function PairedCellsA(mu: real, thetaP: seq<real>, thetaN: seq<real>): (c: Cells)
    requires |thetaP| == NumCodes && |thetaN| == NumCodes
    ensures IsProbability(mu) && IsSimplex(thetaP) && IsSimplex(thetaN) ==>
      IsDistribution(c) && c.tp + c.fn == mu && c.fp + c.tn == 1.0 - mu
  {
    var nu := 1.0 - mu;
    var posP, negP := thetaP[OutCode(true, false)] + thetaP[OutCode(true, true)], thetaP[OutCode(false, false)] + thetaP[OutCode(false, true)];
    var posN, negN := thetaN[OutCode(true, false)] + thetaN[OutCode(true, true)], thetaN[OutCode(false, false)] + thetaN[OutCode(false, true)];
    ScaledHalves(mu, posP, negP);
    ScaledHalves(nu, posN, negN);
    Cells(mu * posP, mu * negP, nu * posN, nu * negN)
  }

  /** The cells of predictor B in the paired model, as the source writes them. */
  function PairedCellsB(mu: real, thetaP: seq<real>, thetaN: seq<real>): (c: Cells)
    requires |thetaP| == NumCodes && |thetaN| == NumCodes
    ensures IsProbability(mu) && IsSimplex(thetaP) && IsSimplex(thetaN) ==>
      IsDistribution(c) && c.tp + c.fn == mu && c.fp + c.tn == 1.0 - mu
  {
    var nu := 1.0 - mu;
    var posP, negP := thetaP[OutCode(false, true)] + thetaP[OutCode(true, true)], thetaP[OutCode(false, false)] + thetaP[OutCode(true, false)];
    var posN, negN := thetaN[OutCode(false, true)] + thetaN[OutCode(true, true)], thetaN[OutCode(false, false)] + thetaN[OutCode(true, false)];
    ScaledHalves(mu, posP, negP);
    ScaledHalves(nu, posN, negN);
    Cells(mu * posP, mu * negP, nu * posN, nu * negN)
  }

  /** A's predicted-positive codes are {2, 3} and B's are {1, 3}: the
      hand-written cells agree with the reference definition. */
  lemma PairedCellsMatchReference(mu: real, thetaP: seq<real>, thetaN: seq<real>)
    requires |thetaP| == NumCodes && |thetaN| == NumCodes
    ensures PairedCellsA(mu, thetaP, thetaN) == ReferenceCells(A, mu, thetaP, thetaN)
    ensures PairedCellsB(mu, thetaP, thetaN) == ReferenceCells(B, mu, thetaP, thetaN)
  {
    var nu := 1.0 - mu;
    assert MassWhere(thetaP, A, true) == thetaP[2] + thetaP[3];
    assert MassWhere(thetaP, A, false) == thetaP[0] + thetaP[1];
    assert MassWhere(thetaN, A, true) == thetaN[2] + thetaN[3];
    assert MassWhere(thetaN, A, false) == thetaN[0] + thetaN[1];
    assert MassWhere(thetaP, B, true) == thetaP[1] + thetaP[3];
    assert MassWhere(thetaP, B, false) == thetaP[0] + thetaP[2];
    assert MassWhere(thetaN, B, true) == thetaN[1] + thetaN[3];
    assert MassWhere(thetaN, B, false) == thetaN[0] + thetaN[2];
    assert PairedCellsA(mu, thetaP, thetaN) == Cells(mu * (thetaP[2] + thetaP[3]), mu * (thetaP[0] + thetaP[1]),
                                                     nu * (thetaN[2] + thetaN[3]), nu * (thetaN[0] + thetaN[1]));
    assert PairedCellsB(mu, thetaP, thetaN) == Cells(mu * (thetaP[1] + thetaP[3]), mu * (thetaP[0] + thetaP[2]),
                                                     nu * (thetaN[1] + thetaN[3]), nu * (thetaN[0] + thetaN[2]));
  }

  /** Exchanging the predictors exchanges their cells. */
  lemma PairedCellsSwap(mu: real, thetaP: seq<real>, thetaN: seq<real>)
    requires |thetaP| == NumCodes && |thetaN| == NumCodes
    ensures PairedCellsB(mu, SwapCodes(thetaP), SwapCodes(thetaN)) == PairedCellsA(mu, thetaP, thetaN)
    ensures PairedCellsA(mu, SwapCodes(thetaP), SwapCodes(thetaN)) == PairedCellsB(mu, thetaP, thetaN)
  {
    assert SwapCodes(thetaP) == [thetaP[0], thetaP[2], thetaP[1], thetaP[3]];
    assert SwapCodes(thetaN) == [thetaN[0], thetaN[2], thetaN[1], thetaN[3]];
  }

  /** The mass of the cell an example with the given truth and prediction falls in. */
  function CellMass(c: Cells, truth: bool, predicted: bool): real {
    if truth then (if predicted then c.tp else c.fn)
    else (if predicted then c.fp else c.tn)
  }

  /** The cells of one predictor in the unpaired model: `theta` is indexed
      by the (truth, prediction) code, so each cell is one entry. */
  function UnpairedCells(theta: seq<real>): (c: Cells)
    requires |theta| == NumCodes
    ensures forall truth: bool, predicted: bool :: CellMass(c, truth, predicted) == theta[OutCode(truth, predicted)]
    ensures IsSimplex(theta) ==> IsDistribution(c)
  {
    Cells(theta[OutCode(true, true)], theta[OutCode(true, false)], theta[OutCode(false, true)], theta[OutCode(false, false)])
  }

  // ---------------------------------------------------------------------
  // Precision, recall, F1
  // ---------------------------------------------------------------------

  /** Precision `tp / (tp + fp)`. */
  function Precision(c: Cells): (p: real)
    requires c.tp + c.fp != 0.0
    ensures c.tp >= 0.0 && c.fp >= 0.0 ==> IsProbability(p) && (p == 1.0 <==> c.fp == 0.0)
  {
    c.tp / (c.tp + c.fp)
  }

  /** Recall `tp / (tp + fn)`. */
  function Recall(c: Cells): (r: real)
    requires c.tp + c.fn != 0.0
    ensures c.tp >= 0.0 && c.fn >= 0.0 ==> IsProbability(r) && (r == 1.0 <==> c.fn == 0.0)
  {
    c.tp / (c.tp + c.fn)
  }

  /** The harmonic mean of two non-negative numbers lies between them. */
  lemma HarmonicBetween(p: real, r: real)
    requires p + r != 0.0
    ensures 0.0 <= p && 0.0 <= r ==> Min(p, r) <= 2.0 * (p * r) / (p + r) <= Max(p, r)
  {
    if 0.0 <= p <= r {
      HarmonicAboveMin(p, r);
      HarmonicBelowMax(p, r);
    } else if 0.0 <= r < p {
      HarmonicAboveMin(r, p);
      HarmonicBelowMax(r, p);
      assert r * p == p * r && r + p == p + r;
    }
  }

  /** The lower half of `HarmonicBetween`, for ordered arguments. */
  lemma HarmonicAboveMin(lo: real, hi: real)
    requires 0.0 <= lo <= hi && lo + hi != 0.0
    ensures lo <= 2.0 * (lo * hi) / (lo + hi)
  {
    var s := lo + hi;
    var f := 2.0 * (lo * hi) / s;
    assert f * s == 2.0 * (lo * hi);
    Distribute(lo, lo, hi);
    MulMonotone(lo, lo, hi);
    assert lo * s <= f * s;
    CancelPositive(lo, f, s);
  }

  /** The upper half of `HarmonicBetween`, for ordered arguments. */
  lemma HarmonicBelowMax(lo: real, hi: real)
    requires 0.0 <= lo <= hi && lo + hi != 0.0
    ensures 2.0 * (lo * hi) / (lo + hi) <= hi
  {
    var s := lo + hi;
    var f := 2.0 * (lo * hi) / s;
    assert f * s == 2.0 * (lo * hi);
    Distribute(hi, lo, hi);
    MulMonotone(hi, lo, hi);
    assert hi * lo == lo * hi;
    assert f * s <= hi * s;
    CancelPositive(f, hi, s);
  }

  /** F1, `2 * (P * R) / (P + R)`: when P and R are non-negative it lies
      between them, so it is a probability whenever they are. */
  function F1(p: real, r: real): (f: real)
    requires p + r != 0.0
    ensures 0.0 <= p && 0.0 <= r ==> Min(p, r) <= f <= Max(p, r)
    ensures IsProbability(p) && IsProbability(r) ==> IsProbability(f)
  {
    HarmonicBetween(p, r);
    2.0 * (p * r) / (p + r)
  }

  /** F1 is the harmonic mean: its reciprocal is the mean of the reciprocals. */
  lemma F1IsHarmonicMean(p: real, r: real)
    requires p > 0.0 && r > 0.0
    ensures 1.0 / F1(p, r) == (1.0 / p + 1.0 / r) / 2.0
  {
    var f := F1(p, r);
    assert f * (p + r) == 2.0 * (p * r);
    assert f > 0.0;
    assert (1.0 / p + 1.0 / r) * (p * r) == p + r;
  }

  /** All three ratios of a predictor are defined: the source would
      otherwise divide by zero. */
  predicate Defined(c: Cells) {
    c.tp + c.fp != 0.0 && c.tp + c.fn != 0.0 && Precision(c) + Recall(c) != 0.0
  }

  /** F1 of a predictor's cells. */
  function F1Score(c: Cells): (f: real)
    requires Defined(c)
    ensures c.tp >= 0.0 && c.fn >= 0.0 && c.fp >= 0.0 ==> IsProbability(f)
  {
    F1(Precision(c), Recall(c))
  }

  /** For non-negative cells the ratios are defined exactly when there is
      true-positive mass. */
  lemma DefinedIffTruePositives(c: Cells)
    requires c.tp >= 0.0 && c.fn >= 0.0 && c.fp >= 0.0
    ensures Defined(c) <==> c.tp > 0.0
  {
    if c.tp > 0.0 {
      assert Precision(c) > 0.0 && Recall(c) > 0.0;
    } else if c.tp + c.fp != 0.0 && c.tp + c.fn != 0.0 {
      assert Precision(c) == 0.0 && Recall(c) == 0.0;
    }
  }

  /** The reciprocal of a positive ratio is the inverted ratio. */
  lemma ReciprocalOfRatio(x: real, y: real)
    requires x > 0.0 && y > 0.0
    ensures 1.0 / (x / y) == y / x
  {
  }

  /** F1 read directly off the cells: `2 tp / (2 tp + fp + fn)`. */
  lemma F1FromCells(c: Cells)
    requires c.tp > 0.0 && c.fn >= 0.0 && c.fp >= 0.0
    ensures Defined(c) && F1Score(c) == 2.0 * c.tp / (2.0 * c.tp + c.fp + c.fn)
  {
    DefinedIffTruePositives(c);
    var t, a, b := c.tp, c.tp + c.fp, c.tp + c.fn;
    var p, r := Precision(c), Recall(c);
    assert p == t / a && r == t / b;
    ReciprocalOfRatio(t, a);
    ReciprocalOfRatio(t, b);
    F1IsHarmonicMean(p, r);
    var f := F1(p, r);
    assert 1.0 / f == (a / t + b / t) / 2.0;
    assert (a / t + b / t) / 2.0 == (a + b) / (2.0 * t);
    assert f > 0.0;
    ReciprocalOfRatio(a + b, 2.0 * t);
    assert f == 1.0 / (1.0 / f);
  }

  // ---------------------------------------------------------------------
  // Delta
  // ---------------------------------------------------------------------

  /** `delta = F1_a - F1_b` of the paired model for one draw of the latents. */
  function PairedDelta(mu: real, thetaP: seq<real>, thetaN: seq<real>): (d: real)
    requires |thetaP| == NumCodes && |thetaN| == NumCodes
    requires Defined(PairedCellsA(mu, thetaP, thetaN)) && Defined(PairedCellsB(mu, thetaP, thetaN))
    ensures IsProbability(mu) && IsSimplex(thetaP) && IsSimplex(thetaN) ==> -1.0 <= d <= 1.0
  {
    F1Score(PairedCellsA(mu, thetaP, thetaN)) - F1Score(PairedCellsB(mu, thetaP, thetaN))
  }

  /** Exchanging the two predictors negates delta. */
  lemma PairedDeltaSwap(mu: real, thetaP: seq<real>, thetaN: seq<real>)
    requires |thetaP| == NumCodes && |thetaN| == NumCodes
    requires Defined(PairedCellsA(mu, thetaP, thetaN)) && Defined(PairedCellsB(mu, thetaP, thetaN))
    ensures var sp, sn := SwapCodes(thetaP), SwapCodes(thetaN);
      && Defined(PairedCellsA(mu, sp, sn)) && Defined(PairedCellsB(mu, sp, sn))
      && PairedDelta(mu, sp, sn) == -PairedDelta(mu, thetaP, thetaN)
  {
    PairedCellsSwap(mu, thetaP, thetaN);
  }

  /** `delta = F1_a - F1_b` of the unpaired model for one draw of the latents. */
  function UnpairedDelta(thetaA: seq<real>, thetaB: seq<real>): (d: real)
    requires |thetaA| == NumCodes && |thetaB| == NumCodes
    requires Defined(UnpairedCells(thetaA)) && Defined(UnpairedCells(thetaB))
    ensures IsSimplex(thetaA) && IsSimplex(thetaB) ==> -1.0 <= d <= 1.0
  {
    F1Score(UnpairedCells(thetaA)) - F1Score(UnpairedCells(thetaB))
  }

  // ---------------------------------------------------------------------
  // The unpaired model as a marginal of the paired one
  // ---------------------------------------------------------------------

  /** The (truth, prediction) latent of predictor `who` implied by a paired
      draw: the mass of truth `t` and prediction `p` is the class prevalence
      times the mass of the codes in which `who` predicts `p`. */
  function MarginalTheta(who: Predictor, mu: real, thetaP: seq<real>, thetaN: seq<real>): (theta: seq<real>)
    requires |thetaP| == NumCodes && |thetaN| == NumCodes
    ensures |theta| == NumCodes
    ensures forall truth: bool, predicted: bool ::
      theta[OutCode(truth, predicted)] == (if truth then mu else 1.0 - mu) * MassWhere(if truth then thetaP else thetaN, who, predicted)
  {
    [(1.0 - mu) * MassWhere(thetaN, who, false), (1.0 - mu) * MassWhere(thetaN, who, true),
     mu * MassWhere(thetaP, who, false), mu * MassWhere(thetaP, who, true)]
  }

  /** The unpaired cells of the marginal latent are the paired cells: the
      unpaired model reads each predictor's confusion table directly off a
      latent that the paired model splits by class and by the other
      predictor's outcome. A valid paired draw gives a valid unpaired one. */
  lemma MarginalCellsArePairedCells(mu: real, thetaP: seq<real>, thetaN: seq<real>)
    requires |thetaP| == NumCodes && |thetaN| == NumCodes
    ensures UnpairedCells(MarginalTheta(A, mu, thetaP, thetaN)) == PairedCellsA(mu, thetaP, thetaN)
    ensures UnpairedCells(MarginalTheta(B, mu, thetaP, thetaN)) == PairedCellsB(mu, thetaP, thetaN)
    ensures IsProbability(mu) && IsSimplex(thetaP) && IsSimplex(thetaN) ==>
      IsSimplex(MarginalTheta(A, mu, thetaP, thetaN)) && IsSimplex(MarginalTheta(B, mu, thetaP, thetaN))
  {
    PairedCellsMatchReference(mu, thetaP, thetaN);
    var ta, tb := MarginalTheta(A, mu, thetaP, thetaN), MarginalTheta(B, mu, thetaP, thetaN);
    assert UnpairedCells(ta) == ReferenceCells(A, mu, thetaP, thetaN);
    assert UnpairedCells(tb) == ReferenceCells(B, mu, thetaP, thetaN);
    if IsProbability(mu) && IsSimplex(thetaP) && IsSimplex(thetaN) {
      var ca, cb := PairedCellsA(mu, thetaP, thetaN), PairedCellsB(mu, thetaP, thetaN);
      assert ta == [ca.tn, ca.fp, ca.fn, ca.tp];
      assert tb == [cb.tn, cb.fp, cb.fn, cb.tp];
    }
  }

  /** Delta computed by the unpaired model on the marginal latents is the
      paired delta. */
  lemma MarginalDeltaIsPairedDelta(mu: real, thetaP: seq<real>, thetaN: seq<real>)
    requires |thetaP| == NumCodes && |thetaN| == NumCodes
    requires Defined(PairedCellsA(mu, thetaP, thetaN)) && Defined(PairedCellsB(mu, thetaP, thetaN))
    ensures var ta, tb := MarginalTheta(A, mu, thetaP, thetaN), MarginalTheta(B, mu, thetaP, thetaN);
      && Defined(UnpairedCells(ta)) && Defined(UnpairedCells(tb))
      && UnpairedDelta(ta, tb) == PairedDelta(mu, thetaP, thetaN)
  {
    MarginalCellsArePairedCells(mu, thetaP, thetaN);
  }
}

=== FILE: encoding.dfy ===
/**
 Outcome encoding of `build_model_paired` and `build_model_unpaired`:
 every example is mapped to one of four outcome codes by the fixed map
 (neg,neg)->0, (neg,pos)->1, (pos,neg)->2, (pos,pos)->3, and the codes
 are counted into length-4 count vectors.
 */
module Encoding {
  import opened Wrappers

  /** An outcome code: one cell of the 2x2 table of two boolean outcomes. */
  type Code = k: int | 0 <= k < 4

  /** The number of codes, `len(out_map)`. */
  const NumCodes: nat := 4

  /** The error the source raises when a prediction vector is shorter than
      the ground truth (the zipped list is indexed past its end). */
  datatype EncodeError = IndexOutOfRange

  /** The first component of the pair a code stands for. */
  predicate First(k: Code) {
    k >= 2
  }

  /** The second component of the pair a code stands for. */
  predicate Second(k: Code) {
    k % 2 == 1
  }

  /** The outcome map `out_map` / `con_map`: the code decodes to the pair. */
  function OutCode(first: bool, second: bool): (k: Code)
    ensures First(k) == first && Second(k) == second
  {
    (if first then 2 else 0) + (if second then 1 else 0)
  }

  /** Every code is the image of the pair it decodes to, so the map is a bijection. */
  lemma OutCodeOnto(k: Code)
    ensures OutCode(First(k), Second(k)) == k
  {
  }

  /** The code of the pair with its two components exchanged (1 <-> 2). */
  function SwapCode(k: Code): (s: Code)
    ensures First(s) == Second(k) && Second(s) == First(k)
  {
    OutCode(Second(k), First(k))
  }

  /** Number of `true` entries, Python's `sum(y_true)`. */
  function CountTrue(ys: seq<bool>): (n: nat)
    ensures n <= |ys|
    ensures n == multiset(ys)[true]
  {
    if |ys| == 0 then 0
    else
      assert ys == [ys[0]] + ys[1..];
      (if ys[0] then 1 else 0) + CountTrue(ys[1..])
  }

  /** The codes of two aligned boolean vectors, one per position: the zip
      of the two vectors mapped through the outcome map. */
  function PairCodes(first: seq<bool>, second: seq<bool>): (codes: seq<Code>)
    requires |first| == |second|
    ensures |codes| == |first|
    ensures forall i :: 0 <= i < |codes| ==> First(codes[i]) == first[i] && Second(codes[i]) == second[i]
  {
    if |first| == 0 then []
    else [OutCode(first[0], second[0])] + PairCodes(first[1..], second[1..])
  }

  /** The codes of the examples whose ground truth equals `positive`, in order
      (the comprehensions building `out_p` and `out_n`). */
  function Select(codes: seq<Code>, truth: seq<bool>, positive: bool): (sel: seq<Code>)
    requires |codes| == |truth|
    ensures forall i :: 0 <= i < |codes| && truth[i] == positive ==> codes[i] in sel
  {
    if |codes| == 0 then []
    else
      var rest := Select(codes[1..], truth[1..], positive);
      assert forall i :: 1 <= i < |codes| ==> codes[i] == codes[1..][i - 1] && truth[i] == truth[1..][i - 1];
      if truth[0] == positive then [codes[0]] + rest else rest
  }

  /** A selection holds one code per example of the selected class. */
  lemma {:induction false} SelectLength(codes: seq<Code>, truth: seq<bool>, positive: bool)
    requires |codes| == |truth|
    ensures |Select(codes, truth, positive)| == if positive then CountTrue(truth) else |truth| - CountTrue(truth)
  {
    if |codes| > 0 {
      SelectLength(codes[1..], truth[1..], positive);
    }
  }

  /** Selecting from a sequence extended by one example extends the selection
      by that example's code when its ground truth matches. */
  lemma {:induction false} SelectAppend(codes: seq<Code>, truth: seq<bool>, positive: bool, c: Code, t: bool)
    requires |codes| == |truth|
    ensures Select(codes + [c], truth + [t], positive) == Select(codes, truth, positive) + (if t == positive then [c] else [])
  {
    if |codes| == 0 {
      assert codes + [c] == [c] && truth + [t] == [t];
    } else {
      SelectAppend(codes[1..], truth[1..], positive, c, t);
      assert (codes + [c])[1..] == codes[1..] + [c];
      assert (truth + [t])[1..] == truth[1..] + [t];
    }
  }

  /** The positions of the examples whose ground truth is `positive` and whose code is `k`. */
  function Positions(codes: seq<Code>, truth: seq<bool>, positive: bool, k: Code): set<int>
    requires |codes| == |truth|
  {
    set i | 0 <= i < |codes| && truth[i] == positive && codes[i] == k
  }

  /** Extending the examples by one adds its position when it matches. */
  lemma PositionsAppend(codes: seq<Code>, truth: seq<bool>, positive: bool, k: Code, c: Code, t: bool)
    requires |codes| == |truth|
    ensures |Positions(codes + [c], truth + [t], positive, k)|
         == |Positions(codes, truth, positive, k)| + (if t == positive && c == k then 1 else 0)
  {
    var n, longCodes, longTruth := |codes|, codes + [c], truth + [t];
    assert forall i :: 0 <= i < n ==> longCodes[i] == codes[i] && longTruth[i] == truth[i];
    assert longCodes[n] == c && longTruth[n] == t;
    var before, after := Positions(codes, truth, positive, k), Positions(longCodes, longTruth, positive, k);
    assert n !in before;
    assert forall i :: i in after && i != n ==> i in before;
    assert forall i :: i in before ==> i in after;
    if t == positive && c == k {
      assert after == before + {n};
    } else {
      assert after == before;
    }
  }

  /** A selection holds exactly the codes of the matching examples: code `k`
      occurs in it once per example with that ground truth and that code. */
  lemma {:induction false} SelectContents(codes: seq<Code>, truth: seq<bool>, positive: bool, k: Code)
    requires |codes| == |truth|
    ensures multiset(Select(codes, truth, positive))[k] == |Positions(codes, truth, positive, k)|
  {
    if |codes| == 0 {
      assert Positions(codes, truth, positive, k) == {};
    } else {
      var n := |codes| - 1;
      var cs, ts, c, t := codes[..n], truth[..n], codes[n], truth[n];
      assert codes == cs + [c];
      assert truth == ts + [t];
      SelectContents(cs, ts, positive, k);
      SelectAppend(cs, ts, positive, c, t);
      PositionsAppend(cs, ts, positive, k, c, t);
    }
  }

  /** Number of occurrences of code `k`, `sum(out == k)`. */
  function CountCode(codes: seq<Code>, k: Code): nat {
    if |codes| == 0 then 0
    else (if codes[0] == k then 1 else 0) + CountCode(codes[1..], k)
  }

  /** `sum(out == k)` is the multiplicity of code `k` among the codes. */
  lemma {:induction false} CountCodeMultiplicity(codes: seq<Code>, k: Code)
    ensures CountCode(codes, k) == multiset(codes)[k]
  {
    if |codes| > 0 {
      CountCodeMultiplicity(codes[1..], k);
      assert codes == [codes[0]] + codes[1..];
    }
  }

  /** Counting over a sequence with a known first element. */
  lemma CountCodeCons(x: Code, rest: seq<Code>, k: Code)
    ensures CountCode([x] + rest, k) == (if x == k then 1 else 0) + CountCode(rest, k)
  {
    assert ([x] + rest)[1..] == rest;
  }

  /** Sum of a count vector. */
  function Sum(cnt: seq<nat>): nat
    requires |cnt| == NumCodes
  {
    cnt[0] + cnt[1] + cnt[2] + cnt[3]
  }

  /** The count vector `[sum(out == k) for k in range(4)]`. */
  function Histogram(codes: seq<Code>): (cnt: seq<nat>)
    ensures |cnt| == NumCodes
    ensures forall k: Code :: cnt[k] == multiset(codes)[k]
  {
    CountCodeMultiplicity(codes, 0);
    CountCodeMultiplicity(codes, 1);
    CountCodeMultiplicity(codes, 2);
    CountCodeMultiplicity(codes, 3);
    [CountCode(codes, 0), CountCode(codes, 1), CountCode(codes, 2), CountCode(codes, 3)]
  }

  /** A histogram accounts for every code exactly once: its sum is the length. */
  lemma {:induction false} HistogramTotal(codes: seq<Code>)
    ensures Sum(Histogram(codes)) == |codes|
  {
    if |codes| > 0 {
      HistogramTotal(codes[1..]);
      assert codes == [codes[0]] + codes[1..];
    }
  }

  /** Counts of the paired encoding: per-class code counts and class sizes. */
  datatype PairedCounts = PairedCounts(cntP: seq<nat>, cntN: seq<nat>, numP: nat, numN: nat)

  /** Counts of the unpaired encoding: one (truth, prediction) count vector per predictor. */
  datatype UnpairedCounts = UnpairedCounts(cntA: seq<nat>, cntB: seq<nat>)

  /** The codes of the pair vectors cut to the length of `truth`, each the
      outcome map applied to that example's two predictions. */
  lemma CodesOfPrefix(truth: seq<bool>, predA: seq<bool>, predB: seq<bool>)
    requires |predA| >= |truth| && |predB| >= |truth|
    ensures var codes := PairCodes(predA[..|truth|], predB[..|truth|]);
      forall i :: 0 <= i < |truth| ==> codes[i] == OutCode(predA[i], predB[i])
  {
    var codes := PairCodes(predA[..|truth|], predB[..|truth|]);
    forall i | 0 <= i < |truth|
      ensures codes[i] == OutCode(predA[i], predB[i])
    {
      OutCodeOnto(codes[i]);
    }
  }

  /** The codes of the positive (`positive` true) or negative examples under
      the paired scheme (`out_p`, `out_n`); the predictions are cut to the
      length of `truth`. Its exact contents are `PairedGroupContents`. */
  function PairedGroup(truth: seq<bool>, predA: seq<bool>, predB: seq<bool>, positive: bool): (g: seq<Code>)
    requires |predA| >= |truth| && |predB| >= |truth|
    ensures |g| == if positive then CountTrue(truth) else |truth| - CountTrue(truth)
    ensures forall i :: 0 <= i < |truth| && truth[i] == positive ==> OutCode(predA[i], predB[i]) in g
  {
    CodesOfPrefix(truth, predA, predB);
    SelectLength(PairCodes(predA[..|truth|], predB[..|truth|]), truth, positive);
    Select(PairCodes(predA[..|truth|], predB[..|truth|]), truth, positive)
  }

  /** The paired group of one class holds, for every code, exactly as many
      entries as there are examples of that class with that code. */
  lemma PairedGroupContents(truth: seq<bool>, predA: seq<bool>, predB: seq<bool>, positive: bool, k: Code)
    requires |predA| >= |truth| && |predB| >= |truth|
    ensures multiset(PairedGroup(truth, predA, predB, positive))[k]
         == |set i | 0 <= i < |truth| && truth[i] == positive && OutCode(predA[i], predB[i]) == k|
  {
    var codes := PairCodes(predA[..|truth|], predB[..|truth|]);
    CodesOfPrefix(truth, predA, predB);
    SelectContents(codes, truth, positive, k);
    assert Positions(codes, truth, positive, k)
        == set i | 0 <= i < |truth| && truth[i] == positive && OutCode(predA[i], predB[i]) == k;
  }

  /** The positions holding code `k`. */
  function Occurrences(codes: seq<Code>, k: Code): set<int> {
    set i | 0 <= i < |codes| && codes[i] == k
  }

  /** Code `k` occurs once per position that holds it. */
  lemma {:induction false} CodePositions(codes: seq<Code>, k: Code)
    ensures multiset(codes)[k] == |Occurrences(codes, k)|
  {
    if |codes| == 0 {
      assert Occurrences(codes, k) == {};
    } else {
      var n := |codes| - 1;
      var cs := codes[..n];
      CodePositions(cs, k);
      assert codes == cs + [codes[n]];
      if codes[n] == k {
        assert Occurrences(codes, k) == Occurrences(cs, k) + {n};
      } else {
        assert Occurrences(codes, k) == Occurrences(cs, k);
      }
    }
  }

  /** The (truth, prediction) codes of one predictor under the unpaired
      scheme (`out_a`, `out_b`): one per example, cut to the length of
      `truth`. Its exact contents are `UnpairedContents`. */
  function UnpairedCodes(truth: seq<bool>, pred: seq<bool>): (u: seq<Code>)
    requires |pred| >= |truth|
    ensures |u| == |truth|
    ensures forall i :: 0 <= i < |u| ==> First(u[i]) == truth[i] && Second(u[i]) == pred[i]
  {
    PairCodes(truth, pred[..|truth|])
  }

  /** The unpaired codes of one predictor hold code `k` once per example
      whose (truth, prediction) pair maps to `k`. */
  lemma UnpairedContents(truth: seq<bool>, pred: seq<bool>, k: Code)
    requires |pred| >= |truth|
    ensures multiset(UnpairedCodes(truth, pred))[k]
         == |set i | 0 <= i < |truth| && OutCode(truth[i], pred[i]) == k|
  {
    var codes := UnpairedCodes(truth, pred);
    CodePositions(codes, k);
    forall i | 0 <= i < |truth|
      ensures codes[i] == OutCode(truth[i], pred[i])
    {
      OutCodeOnto(codes[i]);
    }
    assert Occurrences(codes, k) == set i | 0 <= i < |truth| && OutCode(truth[i], pred[i]) == k;
  }

  /** The counting part of `build_model_paired`. */
  function EncodePaired(truth: seq<bool>, predA: seq<bool>, predB: seq<bool>): (r: Result<PairedCounts, EncodeError>)
    ensures r.Failure? <==> |predA| < |truth| || |predB| < |truth|
    ensures r.Success? ==>
      && |r.value.cntP| == NumCodes && |r.value.cntN| == NumCodes
      && r.value.numP == multiset(truth)[true]
      && r.value.numP + r.value.numN == |truth|
  {
    if |predA| < |truth| || |predB| < |truth| then Failure(IndexOutOfRange)
    else
      var numP := CountTrue(truth);
      Success(PairedCounts(
        Histogram(PairedGroup(truth, predA, predB, true)),
        Histogram(PairedGroup(truth, predA, predB, false)),
        numP, |truth| - numP))
  }

  /** The counting part of `build_model_unpaired`. */
  function EncodeUnpaired(truth: seq<bool>, predA: seq<bool>, predB: seq<bool>): (r: Result<UnpairedCounts, EncodeError>)
    ensures r.Failure? <==> |predA| < |truth| || |predB| < |truth|
    ensures r.Success? ==> |r.value.cntA| == NumCodes && |r.value.cntB| == NumCodes
  {
    if |predA| < |truth| || |predB| < |truth| then Failure(IndexOutOfRange)
    else Success(UnpairedCounts(Histogram(UnpairedCodes(truth, predA)), Histogram(UnpairedCodes(truth, predB))))
  }

  /** The paired counts are the histograms of the two groups. */
  lemma {:induction false} PairedCountsOfGroups(truth: seq<bool>, predA: seq<bool>, predB: seq<bool>)
    requires |predA| >= |truth| && |predB| >= |truth|
    ensures var gp, gn := PairedGroup(truth, predA, predB, true), PairedGroup(truth, predA, predB, false);
      EncodePaired(truth, predA, predB) == Success(PairedCounts(Histogram(gp), Histogram(gn), CountTrue(truth), |truth| - CountTrue(truth)))
  {
  }

  /** `cnt_p` sums to `num_p` and `cnt_n` sums to `num_n = N - num_p`. */
  lemma PairedCountsSum(truth: seq<bool>, predA: seq<bool>, predB: seq<bool>)
    requires |predA| >= |truth| && |predB| >= |truth|
    ensures var c := EncodePaired(truth, predA, predB).value;
      Sum(c.cntP) == c.numP && Sum(c.cntN) == c.numN
  {
    HistogramTotal(PairedGroup(truth, predA, predB, true));
    HistogramTotal(PairedGroup(truth, predA, predB, false));
  }

  /** What the paired counts count: `cnt_p[k]` is the number of positive
      examples whose (A, B) predictions have code k, and `cnt_n[k]` the
      number of negative ones. */
  lemma PairedCountsContents(truth: seq<bool>, predA: seq<bool>, predB: seq<bool>, k: Code)
    requires |predA| >= |truth| && |predB| >= |truth|
    ensures var c := EncodePaired(truth, predA, predB).value;
      && c.cntP[k] == |set i | 0 <= i < |truth| && truth[i] && OutCode(predA[i], predB[i]) == k|
      && c.cntN[k] == |set i | 0 <= i < |truth| && !truth[i] && OutCode(predA[i], predB[i]) == k|
  {
    PairedCountsOfGroups(truth, predA, predB);
    PairedGroupContents(truth, predA, predB, true, k);
    PairedGroupContents(truth, predA, predB, false, k);
    assert (set i | 0 <= i < |truth| && truth[i] == true && OutCode(predA[i], predB[i]) == k)
        == (set i | 0 <= i < |truth| && truth[i] && OutCode(predA[i], predB[i]) == k);
    assert (set i | 0 <= i < |truth| && truth[i] == false && OutCode(predA[i], predB[i]) == k)
        == (set i | 0 <= i < |truth| && !truth[i] && OutCode(predA[i], predB[i]) == k);
  }

  /** What the unpaired counts count: `cnt_a[k]` is the number of examples
      whose (truth, A's prediction) pair has code k, and likewise for B. */
  lemma UnpairedCountsContents(truth: seq<bool>, predA: seq<bool>, predB: seq<bool>, k: Code)
    requires |predA| >= |truth| && |predB| >= |truth|
    ensures var c := EncodeUnpaired(truth, predA, predB).value;
      && c.cntA[k] == |set i | 0 <= i < |truth| && OutCode(truth[i], predA[i]) == k|
      && c.cntB[k] == |set i | 0 <= i < |truth| && OutCode(truth[i], predB[i]) == k|
  {
    UnpairedContents(truth, predA, k);
    UnpairedContents(truth, predB, k);
  }

  /** In the unpaired scheme the truth is the first component of a code, so
      codes 2 and 3 together are exactly the positive examples. */
  lemma {:induction false} PositiveCodesCountTruth(truth: seq<bool>, pred: seq<bool>)
    requires |pred| == |truth|
    ensures CountCode(PairCodes(truth, pred), 2) + CountCode(PairCodes(truth, pred), 3) == CountTrue(truth)
  {
    if |truth| > 0 {
      PositiveCodesCountTruth(truth[1..], pred[1..]);
      assert PairCodes(truth, pred)[1..] == PairCodes(truth[1..], pred[1..]);
    }
  }

  /** Each unpaired count vector sums to N, and its entries 2 and 3 add up to
      the number of true labels. */
  lemma UnpairedCountsSum(truth: seq<bool>, predA: seq<bool>, predB: seq<bool>)
    requires |predA| >= |truth| && |predB| >= |truth|
    ensures var c := EncodeUnpaired(truth, predA, predB).value;
      && Sum(c.cntA) == |truth| && Sum(c.cntB) == |truth|
      && c.cntA[2] + c.cntA[3] == CountTrue(truth)
      && c.cntB[2] + c.cntB[3] == CountTrue(truth)
  {
    HistogramTotal(UnpairedCodes(truth, predA));
    HistogramTotal(UnpairedCodes(truth, predB));
    PositiveCodesCountTruth(truth, predA[..|truth|]);
    PositiveCodesCountTruth(truth, predB[..|truth|]);
  }

  /** Splitting by ground truth loses and duplicates nothing: the positive and
      negative groups together hold exactly the codes of all examples. */
  lemma {:induction false} SelectPartition(codes: seq<Code>, truth: seq<bool>)
    requires |codes| == |truth|
    ensures multiset(Select(codes, truth, true)) + multiset(Select(codes, truth, false)) == multiset(codes)
  {
    if |codes| > 0 {
      var n := |codes| - 1;
      var cs, ts, c, t := codes[..n], truth[..n], codes[n], truth[n];
      assert codes == cs + [c];
      assert truth == ts + [t];
      SelectPartition(cs, ts);
      SelectAppend(cs, ts, true, c, t);
      SelectAppend(cs, ts, false, c, t);
      var pos, neg := Select(cs, ts, true), Select(cs, ts, false);
      if t {
        assert multiset(Select(codes, truth, true)) == multiset(pos) + multiset{c};
        assert multiset(Select(codes, truth, false)) == multiset(neg);
      } else {
        assert multiset(Select(codes, truth, true)) == multiset(pos);
        assert multiset(Select(codes, truth, false)) == multiset(neg) + multiset{c};
      }
    }
  }

  /** Every example receives exactly one code and lands in exactly one group:
      `cnt_p[k] + cnt_n[k]` is the number of examples with code k. */
  lemma PairedCountsCover(truth: seq<bool>, predA: seq<bool>, predB: seq<bool>, k: Code)
    requires |predA| >= |truth| && |predB| >= |truth|
    ensures var c := EncodePaired(truth, predA, predB).value;
      c.cntP[k] + c.cntN[k] == CountCode(PairCodes(predA[..|truth|], predB[..|truth|]), k)
  {
    var codes := PairCodes(predA[..|truth|], predB[..|truth|]);
    SelectPartition(codes, truth);
    CountCodeMultiplicity(codes, k);
  }

  /** Unpaired (truth, A) codes are the paired codes with B's outcome summed out. */
  lemma {:induction false} MarginalA(truth: seq<bool>, predA: seq<bool>, predB: seq<bool>, positive: bool, x: bool)
    requires |predA| == |truth| && |predB| == |truth|
    ensures var group := Select(PairCodes(predA, predB), truth, positive);
      CountCode(PairCodes(truth, predA), OutCode(positive, x))
        == CountCode(group, OutCode(x, false)) + CountCode(group, OutCode(x, true))
  {
    if |truth| > 0 {
      var t, a, b := truth[1..], predA[1..], predB[1..];
      MarginalA(t, a, b, positive, x);
      var codes := PairCodes(predA, predB);
      var tail := PairCodes(a, b);
      assert codes == [codes[0]] + tail;
      var rest := Select(tail, t, positive);
      var un := PairCodes(truth, predA);
      assert un == [un[0]] + PairCodes(t, predA[1..]);
      CountCodeCons(un[0], PairCodes(t, predA[1..]), OutCode(positive, x));
      if truth[0] == positive {
        assert Select(codes, truth, positive) == [codes[0]] + rest;
        CountCodeCons(codes[0], rest, OutCode(x, false));
        CountCodeCons(codes[0], rest, OutCode(x, true));
      } else {
        assert Select(codes, truth, positive) == rest;
      }
    }
  }

  /** Unpaired (truth, B) codes are the paired codes with A's outcome summed out. */
  lemma {:induction false} MarginalB(truth: seq<bool>, predA: seq<bool>, predB: seq<bool>, positive: bool, x: bool)
    requires |predA| == |truth| && |predB| == |truth|
    ensures var group := Select(PairCodes(predA, predB), truth, positive);
      CountCode(PairCodes(truth, predB), OutCode(positive, x))
        == CountCode(group, OutCode(false, x)) + CountCode(group, OutCode(true, x))
  {
    if |truth| > 0 {
      var t, a, b := truth[1..], predA[1..], predB[1..];
      MarginalB(t, a, b, positive, x);
      var codes := PairCodes(predA, predB);
      var tail := PairCodes(a, b);
      assert codes == [codes[0]] + tail;
      var rest := Select(tail, t, positive);
      var un := PairCodes(truth, predB);
      assert un == [un[0]] + PairCodes(t, predB[1..]);
      CountCodeCons(un[0], PairCodes(t, predB[1..]), OutCode(positive, x));
      if truth[0] == positive {
        assert Select(codes, truth, positive) == [codes[0]] + rest;
        CountCodeCons(codes[0], rest, OutCode(false, x));
        CountCodeCons(codes[0], rest, OutCode(true, x));
      } else {
        assert Select(codes, truth, positive) == rest;
      }
    }
  }

  /** The unpaired count vectors are the marginals of the paired ones: A's
      predicted-positive codes are {2, 3}, B's are {1, 3}. */
  lemma UnpairedIsMarginalOfPaired(truth: seq<bool>, predA: seq<bool>, predB: seq<bool>)
    requires |predA| >= |truth| && |predB| >= |truth|
    ensures var p := EncodePaired(truth, predA, predB).value;
            var u := EncodeUnpaired(truth, predA, predB).value;
      && u.cntA[3] == p.cntP[2] + p.cntP[3] && u.cntA[2] == p.cntP[0] + p.cntP[1]
      && u.cntA[1] == p.cntN[2] + p.cntN[3] && u.cntA[0] == p.cntN[0] + p.cntN[1]
      && u.cntB[3] == p.cntP[1] + p.cntP[3] && u.cntB[2] == p.cntP[0] + p.cntP[2]
      && u.cntB[1] == p.cntN[1] + p.cntN[3] && u.cntB[0] == p.cntN[0] + p.cntN[2]
  {
    var n := |truth|;
    var a, b := predA[..n], predB[..n];
    MarginalA(truth, a, b, true, true);
    MarginalA(truth, a, b, true, false);
    MarginalA(truth, a, b, false, true);
    MarginalA(truth, a, b, false, false);
    MarginalB(truth, a, b, true, true);
    MarginalB(truth, a, b, true, false);
    MarginalB(truth, a, b, false, true);
    MarginalB(truth, a, b, false, false);
  }

  /** A per-code vector (counts, or a latent's probabilities) with the
      roles of A and B exchanged: codes 1 and 2 trade places. */
  function SwapCodes<T>(v: seq<T>): (s: seq<T>)
    requires |v| == NumCodes
    ensures |s| == NumCodes
    ensures forall k: Code :: s[k] == v[SwapCode(k)]
  {
    [v[0], v[2], v[1], v[3]]
  }

  /** Exchanging the predictors relabels every code through `SwapCode`. */
  lemma {:induction false} SelectSwap(truth: seq<bool>, predA: seq<bool>, predB: seq<bool>, positive: bool, k: Code)
    requires |predA| == |truth| && |predB| == |truth|
    ensures CountCode(Select(PairCodes(predB, predA), truth, positive), k)
         == CountCode(Select(PairCodes(predA, predB), truth, positive), SwapCode(k))
  {
    if |truth| > 0 {
      var t, a, b := truth[1..], predA[1..], predB[1..];
      SelectSwap(t, a, b, positive, k);
      var codes, swapped := PairCodes(predA, predB), PairCodes(predB, predA);
      var tail, swappedTail := PairCodes(a, b), PairCodes(b, a);
      assert codes == [codes[0]] + tail;
      assert swapped == [swapped[0]] + swappedTail;
      OutCodeOnto(codes[0]);
      OutCodeOnto(swapped[0]);
      OutCodeOnto(k);
      assert (swapped[0] == k) == (codes[0] == SwapCode(k));
      var rest, swappedRest := Select(tail, t, positive), Select(swappedTail, t, positive);
      if truth[0] == positive {
        assert Select(codes, truth, positive) == [codes[0]] + rest;
        assert Select(swapped, truth, positive) == [swapped[0]] + swappedRest;
        CountCodeCons(codes[0], rest, SwapCode(k));
        CountCodeCons(swapped[0], swappedRest, k);
      } else {
        assert Select(codes, truth, positive) == rest;
        assert Select(swapped, truth, positive) == swappedRest;
      }
    }
  }

  /** The count vector of a group after exchanging the predictors. */
  lemma GroupSwap(truth: seq<bool>, predA: seq<bool>, predB: seq<bool>, positive: bool)
    requires |predA| >= |truth| && |predB| >= |truth|
    ensures Histogram(PairedGroup(truth, predB, predA, positive))
         == SwapCodes(Histogram(PairedGroup(truth, predA, predB, positive)))
  {
    var n := |truth|;
    var a, b := predA[..n], predB[..n];
    SelectSwap(truth, a, b, positive, 0);
    SelectSwap(truth, a, b, positive, 1);
    SelectSwap(truth, a, b, positive, 2);
    SelectSwap(truth, a, b, positive, 3);
    var g, h := Select(PairCodes(a, b), truth, positive), Select(PairCodes(b, a), truth, positive);
    assert Histogram(h) == [CountCode(h, 0), CountCode(h, 1), CountCode(h, 2), CountCode(h, 3)];
    assert SwapCodes(Histogram(g)) == [CountCode(g, 0), CountCode(g, 2), CountCode(g, 1), CountCode(g, 3)];
  }

  /** Encoding (B, A) instead of (A, B) exchanges codes 1 and 2 in both
      count vectors and leaves the class sizes alone. */
  lemma PairedSwap(truth: seq<bool>, predA: seq<bool>, predB: seq<bool>)
    requires |predA| >= |truth| && |predB| >= |truth|
    ensures var c := EncodePaired(truth, predA, predB).value;
      EncodePaired(truth, predB, predA) == Success(PairedCounts(SwapCodes(c.cntP), SwapCodes(c.cntN), c.numP, c.numN))
  {
    var numP := CountTrue(truth);
    var gp, gn := PairedGroup(truth, predA, predB, true), PairedGroup(truth, predA, predB, false);
    var hp, hn := PairedGroup(truth, predB, predA, true), PairedGroup(truth, predB, predA, false);
    assert EncodePaired(truth, predA, predB) == Success(PairedCounts(Histogram(gp), Histogram(gn), numP, |truth| - numP));
    assert EncodePaired(truth, predB, predA) == Success(PairedCounts(Histogram(hp), Histogram(hn), numP, |truth| - numP));
    GroupSwap(truth, predA, predB, true);
    GroupSwap(truth, predA, predB, false);
  }

  /** The codes of the worked example's two prediction vectors. */
  lemma ExampleCodes()
    ensures PairCodes([true, false, false, false], [true, true, false, true]) == [3, 1, 0, 1]
  {
    var a, b := [true, false, false, false], [true, true, false, true];
    assert PairCodes(a[3..], b[3..]) == [1];
    assert PairCodes(a[2..], b[2..]) == [0, 1];
    assert PairCodes(a[1..], b[1..]) == [1, 0, 1];
  }

  /** The worked example's positive examples (the first two) carry codes 3 and 1. */
  lemma ExamplePositives()
    ensures Select([3, 1, 0, 1], [true, true, false, false], true) == [3, 1]
  {
    var codes: seq<Code>, truth := [3, 1, 0, 1], [true, true, false, false];
    assert codes[1..] == [1, 0, 1] && truth[1..] == [true, false, false];
    assert codes[2..] == [0, 1] && truth[2..] == [false, false];
    assert Select([1], [false], true) == [];
    assert Select([0, 1], [false, false], true) == [];
    assert Select([1, 0, 1], [true, false, false], true) == [1];
  }

  /** The worked example's negative examples (the last two) carry codes 0 and 1. */
  lemma ExampleNegatives()
    ensures Select([3, 1, 0, 1], [true, true, false, false], false) == [0, 1]
  {
    var codes: seq<Code>, truth := [3, 1, 0, 1], [true, true, false, false];
    assert codes[1..] == [1, 0, 1] && truth[1..] == [true, false, false];
    assert codes[2..] == [0, 1] && truth[2..] == [false, false];
    assert Select([1], [false], false) == [1];
    assert Select([0, 1], [false, false], false) == [0, 1];
    assert Select([1, 0, 1], [true, false, false], false) == [0, 1];
  }

  /** The worked example's groups, `out_p` and `out_n`. */
  lemma ExampleGroups()
    ensures PairedGroup([true, true, false, false], [true, false, false, false], [true, true, false, true], true) == [3, 1]
    ensures PairedGroup([true, true, false, false], [true, false, false, false], [true, true, false, true], false) == [0, 1]
  {
    var a, b := [true, false, false, false], [true, true, false, true];
    assert a[..4] == a && b[..4] == b;
    ExampleCodes();
    ExamplePositives();
    ExampleNegatives();
  }

  /** The count vectors of the worked example's groups. */
  lemma ExampleHistograms()
    ensures Histogram([3, 1]) == [0, 1, 0, 1]
    ensures Histogram([0, 1]) == [1, 1, 0, 0]
  {
    var p: seq<Code>, n: seq<Code> := [3, 1], [0, 1];
    assert multiset(p) == multiset{3, 1};
    assert multiset(n) == multiset{0, 1};
  }

  /** The worked example: truth [T,T,F,F], A [T,F,F,F], B [T,T,F,T] gives
      cnt_p = [0,1,0,1], cnt_n = [1,1,0,0] and num_p = num_n = 2. */
  lemma PairedExample()
    ensures EncodePaired([true, true, false, false], [true, false, false, false], [true, true, false, true])
         == Success(PairedCounts([0, 1, 0, 1], [1, 1, 0, 0], 2, 2))
  {
    var truth, a, b := [true, true, false, false], [true, false, false, false], [true, true, false, true];
    ExampleGroups();
    ExampleHistograms();
    assert CountTrue(truth) == 2 by {
      assert multiset(truth) == multiset{true, true, false, false};
    }
    assert EncodePaired(truth, a, b)
        == Success(PairedCounts(Histogram(PairedGroup(truth, a, b, true)), Histogram(PairedGroup(truth, a, b, false)), 2, 2));
  }
}

=== FILE: posterior.dfy ===
/**
 The conjugate parameters `build_model_paired` and `build_model_unpaired`
 hand to the probabilistic engine: a Beta distribution for the class
 prevalence `mu` and 4-way Dirichlet distributions for the outcome codes.
 The engine itself (sampling, likelihood evaluation) is not modelled; a
 model here is the set of distribution parameters plus the observations a
 likelihood would be conditioned on.
 */
module Posterior {
  import opened Wrappers
  import opened Encoding

  /** Parameters of a Beta distribution, `pm.Beta(name, alpha, beta)`. */
  datatype BetaParams = BetaParams(alpha: real, beta: real)

  /** Concentration vector of a Dirichlet distribution, `pm.Dirichlet(name, a=alpha)`. */
  datatype DirichletParams = DirichletParams(alpha: seq<real>)

  /** The four `model_type` values of `build_model_paired`. */
  datatype ModelType =
    | FlatPrior             // 0: the prior alone
    | PerExampleLikelihood  // 1: Bernoulli / Categorical observations
    | AggregateLikelihood   // 2: Binomial / Multinomial observations
    | DirectPosterior       // 3: the conjugate posterior written out

  /** The observations a model conditions its prior on. */
  datatype Evidence =
    | NoEvidence
      /** `y_true`, `out_p` and `out_n`, one entry per example. */
    | PerExample(truth: seq<bool>, outP: seq<Code>, outN: seq<Code>)
      /** `N`, `num_p`, `num_n`, `cnt_p` and `cnt_n`. */
    | Aggregate(n: nat, numP: nat, numN: nat, cntP: seq<nat>, cntN: seq<nat>)

  /** What the paired builder declares before the derived quantities. */
  datatype PairedModel = PairedModel(mu: BetaParams, thetaP: DirichletParams, thetaN: DirichletParams, evidence: Evidence)

  /** What the unpaired builder declares: one Dirichlet per predictor. */
  datatype UnpairedModel = UnpairedModel(thetaA: DirichletParams, thetaB: DirichletParams)

  /** Why a model cannot be built. */
  datatype ModelError =
    | EncodingFailed(cause: EncodeError)
      /** A `model_type` outside 0..3 leaves `mu` unbound and the builder
          fails when it first uses it. */
    | UnknownModelType(modelType: int)

  /** The flat prior Beta(1, 1). */
  const FlatBeta: BetaParams := BetaParams(1.0, 1.0)

  /** The flat prior Dirichlet(1, 1, 1, 1), `np.repeat(1.0, 4)`. */
  const FlatDirichlet: DirichletParams := DirichletParams([1.0, 1.0, 1.0, 1.0])

  /** Reads the integer `model_type`. */
  function ParseModelType(t: int): (m: Option<ModelType>)
    ensures m.Some? <==> 0 <= t <= 3
  {
    if t == 0 then Some(FlatPrior)
    else if t == 1 then Some(PerExampleLikelihood)
    else if t == 2 then Some(AggregateLikelihood)
    else if t == 3 then Some(DirectPosterior)
    else None
  }

  /** Conjugate update of a Beta prior by a number of successes and failures. */
  function BetaUpdate(prior: BetaParams, successes: nat, failures: nat): BetaParams {
    BetaParams(prior.alpha + successes as real, prior.beta + failures as real)
  }

  /** Conjugate update of a Dirichlet prior by a count vector. */
  function DirichletUpdate(prior: DirichletParams, cnt: seq<nat>): (post: DirichletParams)
    requires |prior.alpha| == |cnt|
    ensures |post.alpha| == |cnt|
  {
    DirichletParams(seq(|cnt|, k requires 0 <= k < |cnt| => prior.alpha[k] + cnt[k] as real))
  }

  /** Entry k of an update is the prior's entry plus the count. */
  lemma DirichletUpdateEntry(prior: DirichletParams, cnt: seq<nat>, k: nat)
    requires |prior.alpha| == |cnt| && k < |cnt|
    ensures DirichletUpdate(prior, cnt).alpha[k] == prior.alpha[k] + cnt[k] as real
  {
  }

  /** Updating the flat prior by any count vector gives a proper Dirichlet
      whose total concentration is 4 plus the number of observations. */
  lemma FlatUpdate(cnt: seq<nat>)
    requires |cnt| == NumCodes
    ensures Proper(DirichletUpdate(FlatDirichlet, cnt))
    ensures Concentration(DirichletUpdate(FlatDirichlet, cnt)) == 4.0 + Sum(cnt) as real
  {
  }

  /** Total concentration of a 4-way Dirichlet. */
  function Concentration(d: DirichletParams): real
    requires |d.alpha| == NumCodes
  {
    d.alpha[0] + d.alpha[1] + d.alpha[2] + d.alpha[3]
  }

  /** A Dirichlet with strictly positive concentrations, which the engine accepts. */
  predicate Proper(d: DirichletParams) {
    |d.alpha| == NumCodes && forall k :: 0 <= k < |d.alpha| ==> d.alpha[k] > 0.0
  }

  /** `build_model_paired` up to the declaration of the latents. Encoding
      happens first, so an index error wins over an unknown model type. */
  function BuildPaired(truth: seq<bool>, predA: seq<bool>, predB: seq<bool>, modelType: int := 3): (r: Result<PairedModel, ModelError>)
    ensures r.Failure? <==> |predA| < |truth| || |predB| < |truth| || !(0 <= modelType <= 3)
    ensures r.Success? && modelType != 3 ==> r.value.mu == FlatBeta && r.value.thetaP == r.value.thetaN == FlatDirichlet
    ensures r.Success? ==> (r.value.evidence.NoEvidence? <==> modelType == 0 || modelType == 3)
    ensures r.Success? && modelType == 1 ==>
      && r.value.evidence.PerExample?
      && r.value.evidence.truth == truth
      && r.value.evidence.outP == PairedGroup(truth, predA, predB, true)
      && r.value.evidence.outN == PairedGroup(truth, predA, predB, false)
    ensures r.Success? && modelType == 2 ==>
      && r.value.evidence.Aggregate?
      && r.value.evidence.n == |truth|
      && r.value.evidence.numP == CountTrue(truth)
      && r.value.evidence.numP + r.value.evidence.numN == r.value.evidence.n
  {
    match EncodePaired(truth, predA, predB)
    case Failure(e) => Failure(EncodingFailed(e))
    case Success(c) =>
      match ParseModelType(modelType)
      case None => Failure(UnknownModelType(modelType))
      case Some(FlatPrior) => Success(PairedModel(FlatBeta, FlatDirichlet, FlatDirichlet, NoEvidence))
      case Some(PerExampleLikelihood) =>
        Success(PairedModel(FlatBeta, FlatDirichlet, FlatDirichlet,
          PerExample(truth, PairedGroup(truth, predA, predB, true), PairedGroup(truth, predA, predB, false))))
      case Some(AggregateLikelihood) =>
        Success(PairedModel(FlatBeta, FlatDirichlet, FlatDirichlet,
          Aggregate(|truth|, c.numP, c.numN, c.cntP, c.cntN)))
      case Some(DirectPosterior) =>
        Success(PairedModel(BetaUpdate(FlatBeta, c.numP, c.numN),
          DirichletUpdate(FlatDirichlet, c.cntP), DirichletUpdate(FlatDirichlet, c.cntN), NoEvidence))
  }

  /** The direct posterior (type 3) is the flat prior of type 2 updated by
      the aggregate observations type 2 conditions on, and the per-example
      observations of type 1 have the same sufficient statistics. */
  lemma DirectPosteriorIsConjugateUpdate(truth: seq<bool>, predA: seq<bool>, predB: seq<bool>)
    requires |predA| >= |truth| && |predB| >= |truth|
    ensures var m1 := BuildPaired(truth, predA, predB, 1).value;
            var m2 := BuildPaired(truth, predA, predB, 2).value;
            var m3 := BuildPaired(truth, predA, predB, 3).value;
      && m2.evidence.Aggregate? && m1.evidence.PerExample?
      && m1.evidence.truth == truth && m2.evidence.n == |truth|
      && |m2.evidence.cntP| == |m2.evidence.cntN| == NumCodes
      && m2.evidence.numP <= m2.evidence.n
      && m3.mu == BetaUpdate(m2.mu, m2.evidence.numP, m2.evidence.n - m2.evidence.numP)
      && m3.thetaP == DirichletUpdate(m2.thetaP, m2.evidence.cntP)
      && m3.thetaN == DirichletUpdate(m2.thetaN, m2.evidence.cntN)
      && m2.evidence.cntP == Histogram(m1.evidence.outP)
      && m2.evidence.cntN == Histogram(m1.evidence.outN)
      && m2.evidence.numP == CountTrue(m1.evidence.truth)
  {
    var c := EncodePaired(truth, predA, predB).value;
    var gp, gn := PairedGroup(truth, predA, predB, true), PairedGroup(truth, predA, predB, false);
    PairedCountsOfGroups(truth, predA, predB);
    assert BuildPaired(truth, predA, predB, 1).value.evidence == PerExample(truth, gp, gn);
    assert BuildPaired(truth, predA, predB, 2).value.evidence == Aggregate(|truth|, c.numP, c.numN, c.cntP, c.cntN);
    DirectPosteriorParams(truth, predA, predB);
  }

  /** The parameters the default model type 3 declares, read off the
      encoder's counts. */
  lemma DirectPosteriorParams(truth: seq<bool>, predA: seq<bool>, predB: seq<bool>)
    requires |predA| >= |truth| && |predB| >= |truth|
    ensures var c := EncodePaired(truth, predA, predB).value;
            var m := BuildPaired(truth, predA, predB).value;
      && m.mu == BetaUpdate(FlatBeta, c.numP, c.numN)
      && m.thetaP == DirichletUpdate(FlatDirichlet, c.cntP)
      && m.thetaN == DirichletUpdate(FlatDirichlet, c.cntN)
  {
  }

  /** Entry k of each paired posterior is one plus the number of examples
      of that class whose (A, B) predictions have code k. */
  lemma DirectPosteriorCounts(truth: seq<bool>, predA: seq<bool>, predB: seq<bool>, k: Code)
    requires |predA| >= |truth| && |predB| >= |truth|
    ensures var m := BuildPaired(truth, predA, predB).value;
      && m.thetaP.alpha[k] == 1.0 + |set i | 0 <= i < |truth| && truth[i] && OutCode(predA[i], predB[i]) == k| as real
      && m.thetaN.alpha[k] == 1.0 + |set i | 0 <= i < |truth| && !truth[i] && OutCode(predA[i], predB[i]) == k| as real
  {
    assert FlatDirichlet.alpha[k] == 1.0;
    DirectPosteriorParams(truth, predA, predB);
    PairedCountsContents(truth, predA, predB, k);
    var c := EncodePaired(truth, predA, predB).value;
    DirichletUpdateEntry(FlatDirichlet, c.cntP, k);
    DirichletUpdateEntry(FlatDirichlet, c.cntN, k);
  }

  /** The paired posterior is proper and its total concentrations grow by
      exactly the number of observations: Beta(1+num_p, 1+num_n) totals
      2 + N, Dirichlet(1+cnt_p) totals 4 + num_p, Dirichlet(1+cnt_n) totals 4 + num_n. */
  lemma PairedPosteriorConcentration(truth: seq<bool>, predA: seq<bool>, predB: seq<bool>)
    requires |predA| >= |truth| && |predB| >= |truth|
    ensures var m := BuildPaired(truth, predA, predB).value;
      && m.mu.alpha >= 1.0 && m.mu.beta >= 1.0
      && m.mu.alpha + m.mu.beta == 2.0 + |truth| as real
      && m.mu.alpha == 1.0 + CountTrue(truth) as real
      && Proper(m.thetaP) && Proper(m.thetaN)
      && Concentration(m.thetaP) == 4.0 + CountTrue(truth) as real
      && Concentration(m.thetaN) == 4.0 + (|truth| - CountTrue(truth)) as real
  {
    DirectPosteriorParams(truth, predA, predB);
    var c := EncodePaired(truth, predA, predB).value;
    PairedCountsSum(truth, predA, predB);
    FlatUpdate(c.cntP);
    FlatUpdate(c.cntN);
  }

  /** `build_model_unpaired` up to the declaration of the latents. */
  function BuildUnpaired(truth: seq<bool>, predA: seq<bool>, predB: seq<bool>): (r: Result<UnpairedModel, ModelError>)
    ensures r.Failure? <==> |predA| < |truth| || |predB| < |truth|
    ensures r.Success? ==> Proper(r.value.thetaA) && Proper(r.value.thetaB)
    ensures r.Success? ==>
      && r.value.thetaA == DirichletUpdate(FlatDirichlet, EncodeUnpaired(truth, predA, predB).value.cntA)
      && r.value.thetaB == DirichletUpdate(FlatDirichlet, EncodeUnpaired(truth, predA, predB).value.cntB)
  {
    match EncodeUnpaired(truth, predA, predB)
    case Failure(e) => Failure(EncodingFailed(e))
    case Success(c) =>
      FlatUpdate(c.cntA);
      FlatUpdate(c.cntB);
      Success(UnpairedModel(DirichletUpdate(FlatDirichlet, c.cntA), DirichletUpdate(FlatDirichlet, c.cntB)))
  }

  /** Each unpaired posterior totals 4 + N, and its truth-positive cells
      (codes 2 and 3) total 2 + num_p. */
  lemma UnpairedPosteriorConcentration(truth: seq<bool>, predA: seq<bool>, predB: seq<bool>)
    requires |predA| >= |truth| && |predB| >= |truth|
    ensures var m := BuildUnpaired(truth, predA, predB).value;
      && Concentration(m.thetaA) == 4.0 + |truth| as real
      && Concentration(m.thetaB) == 4.0 + |truth| as real
      && m.thetaA.alpha[2] + m.thetaA.alpha[3] == 2.0 + CountTrue(truth) as real
      && m.thetaB.alpha[2] + m.thetaB.alpha[3] == 2.0 + CountTrue(truth) as real
  {
    var c := EncodeUnpaired(truth, predA, predB).value;
    UnpairedCountsSum(truth, predA, predB);
    FlatUpdate(c.cntA);
    FlatUpdate(c.cntB);
  }

  /** Entry k of each unpaired posterior is one plus the number of examples
      whose (truth, prediction) pair has code k. */
  lemma UnpairedPosteriorCounts(truth: seq<bool>, predA: seq<bool>, predB: seq<bool>, k: Code)
    requires |predA| >= |truth| && |predB| >= |truth|
    ensures var m := BuildUnpaired(truth, predA, predB).value;
      && m.thetaA.alpha[k] == 1.0 + |set i | 0 <= i < |truth| && OutCode(truth[i], predA[i]) == k| as real
      && m.thetaB.alpha[k] == 1.0 + |set i | 0 <= i < |truth| && OutCode(truth[i], predB[i]) == k| as real
  {
    UnpairedCountsContents(truth, predA, predB, k);
    UnpairedPosteriorEntry(truth, predA, predB, k);
  }

  /** Entry k of each unpaired posterior is one plus the count of code k. */
  lemma UnpairedPosteriorEntry(truth: seq<bool>, predA: seq<bool>, predB: seq<bool>, k: Code)
    requires |predA| >= |truth| && |predB| >= |truth|
    ensures var c := EncodeUnpaired(truth, predA, predB).value;
            var m := BuildUnpaired(truth, predA, predB).value;
      m.thetaA.alpha[k] == 1.0 + c.cntA[k] as real && m.thetaB.alpha[k] == 1.0 + c.cntB[k] as real
  {
    var c := EncodeUnpaired(truth, predA, predB).value;
    var m := BuildUnpaired(truth, predA, predB).value;
    assert FlatDirichlet.alpha[k] == 1.0;
    assert m.thetaA == DirichletUpdate(FlatDirichlet, c.cntA);
    assert m.thetaB == DirichletUpdate(FlatDirichlet, c.cntB);
    DirichletUpdateEntry(FlatDirichlet, c.cntA, k);
    DirichletUpdateEntry(FlatDirichlet, c.cntB, k);
  }
}

=== FILE: summary.dfy ===
/**
 The deterministic part of the posterior analysis: the fractions
 `post_summary` attaches for a comparison value and for a ROPE, and the
 win counts the sign tests `micro_s_test` and `macro_s_test` hand to the
 binomial test. Samples are sequences of exact reals.
 */
module Summary {
  import opened Wrappers
  import opened Decision

  /** Errors the analysed code raises. */
  datatype StatsError =
      /** A fraction of an empty sample divides by `len(sample) == 0`. */
    | ZeroDivision
      /** Two score vectors whose shapes numpy cannot broadcast together. */
    | ShapeMismatch

  /** A fraction of the sample in the unit interval. */
  predicate IsFraction(x: real) {
    0.0 <= x <= 1.0
  }

  // ---------------------------------------------------------------------
  // Counting samples
  // ---------------------------------------------------------------------

  /** Number of samples satisfying `keep`, `np.sum(keep(sample))`. */
  function Count(sample: seq<real>, keep: real -> bool): (n: nat)
    ensures n <= |sample|
  {
    if |sample| == 0 then 0
    else (if keep(sample[0]) then 1 else 0) + Count(sample[1..], keep)
  }

  /** Positions of the samples satisfying `keep`: the mask `keep(sample)`. */
  function Passing(sample: seq<real>, keep: real -> bool): set<int> {
    set i | 0 <= i < |sample| && keep(sample[i])
  }

  /** Appending one sample adds one to the count exactly when it passes. */
  lemma {:induction false} CountAppend(sample: seq<real>, x: real, keep: real -> bool)
    ensures Count(sample + [x], keep) == Count(sample, keep) + (if keep(x) then 1 else 0)
  {
    if |sample| > 0 {
      assert (sample + [x])[1..] == sample[1..] + [x];
      CountAppend(sample[1..], x, keep);
    } else {
      assert sample + [x] == [x];
    }
  }

  /** The count is the number of positions whose sample passes the test. */
  lemma {:induction false} CountPositions(sample: seq<real>, keep: real -> bool)
    ensures Count(sample, keep) == |Passing(sample, keep)|
  {
    if |sample| == 0 {
      assert Passing(sample, keep) == {};
    } else {
      var m := |sample| - 1;
      var prefix := sample[..m];
      assert sample == prefix + [sample[m]];
      CountPositions(prefix, keep);
      CountAppend(prefix, sample[m], keep);
      var before, after := Passing(prefix, keep), Passing(sample, keep);
      assert forall i :: 0 <= i < m ==> prefix[i] == sample[i];
      assert m !in before;
      assert forall i :: i in after && i != m ==> i in before;
      assert forall i :: i in before ==> i in after;
      if keep(sample[m]) {
        assert after == before + {m};
      } else {
        assert after == before;
      }
    }
  }

  /** Every sample satisfies exactly one of two complementary tests. */
  lemma {:induction false} CountComplement(sample: seq<real>, keep: real -> bool, drop: real -> bool)
    requires forall x :: keep(x) <==> !drop(x)
    ensures Count(sample, keep) + Count(sample, drop) == |sample|
  {
    if |sample| > 0 {
      CountComplement(sample[1..], keep, drop);
    }
  }

  /** Counting a test that is the disjoint union of two tests adds their counts. */
  lemma {:induction false} CountDisjointUnion(sample: seq<real>, whole: real -> bool, left: real -> bool, right: real -> bool)
    requires forall x :: whole(x) <==> left(x) || right(x)
    requires forall x :: !(left(x) && right(x))
    ensures Count(sample, whole) == Count(sample, left) + Count(sample, right)
  {
    if |sample| > 0 {
      CountDisjointUnion(sample[1..], whole, left, right);
    }
  }

  /** A test no value passes counts nothing. */
  lemma {:induction false} CountNothing(sample: seq<real>, keep: real -> bool)
    requires forall x :: !keep(x)
    ensures Count(sample, keep) == 0
  {
    if |sample| > 0 {
      CountNothing(sample[1..], keep);
    }
  }

  /** Samples strictly greater than `v`, `np.sum(sample > v)`. */
  function CountAbove(sample: seq<real>, v: real): nat {
    Count(sample, x => x > v)
  }

  /** Samples at most `v`: the complement of `CountAbove`. */
  function CountAtMost(sample: seq<real>, v: real): nat {
    Count(sample, x => x <= v)
  }

  /** Samples at least `v`. */
  function CountAtLeast(sample: seq<real>, v: real): nat {
    Count(sample, x => x >= v)
  }

  /** Samples strictly inside `(lo, hi)`, `np.sum((sample > lo) & (sample < hi))`. */
  function CountInside(sample: seq<real>, lo: real, hi: real): nat {
    Count(sample, x => x > lo && x < hi)
  }

  /** `np.sum(sample > v)` counts the positions whose sample exceeds `v`. */
  lemma AboveCountsPositions(sample: seq<real>, v: real)
    ensures CountAbove(sample, v) == |set i | 0 <= i < |sample| && sample[i] > v|
  {
    CountPositions(sample, x => x > v);
    assert Passing(sample, x => x > v) == set i | 0 <= i < |sample| && sample[i] > v;
  }

  /** `np.sum((sample > lo) & (sample < hi))` counts the positions whose
      sample lies strictly between `lo` and `hi`. */
  lemma InsideCountsPositions(sample: seq<real>, lo: real, hi: real)
    ensures CountInside(sample, lo, hi) == |set i | 0 <= i < |sample| && lo < sample[i] < hi|
  {
    CountPositions(sample, x => x > lo && x < hi);
    assert Passing(sample, x => x > lo && x < hi) == set i | 0 <= i < |sample| && lo < sample[i] < hi;
  }

  /** A count divided by the sample size, `float(count) / len(sample)`. */
  function Fraction(count: nat, size: nat): (f: real)
    requires 0 < size && count <= size
    ensures IsFraction(f)
    ensures f * size as real == count as real
  {
    count as real / size as real
  }

  // ---------------------------------------------------------------------
  // Comparison value
  // ---------------------------------------------------------------------

  /** `(pct_lt, pct_gt)` for a comparison value: `pct_gt` is the fraction
      strictly above it and `pct_lt` is whatever remains. */
  function PctCmpVal(sample: seq<real>, cmpVal: real): (r: Result<(real, real), StatsError>)
    ensures r.Failure? <==> |sample| == 0
    ensures r.Success? ==>
      && IsFraction(r.value.0) && IsFraction(r.value.1)
      && r.value.0 + r.value.1 == 1.0
      && r.value.1 * |sample| as real == CountAbove(sample, cmpVal) as real
  {
    if |sample| == 0 then Failure(ZeroDivision)
    else
      var pctGt := Fraction(CountAbove(sample, cmpVal), |sample|);
      Success((1.0 - pctGt, pctGt))
  }

  /** Ties with the comparison value count toward `pct_lt`: it is exactly
      the fraction of samples at most the comparison value. */
  lemma PctLtCountsTies(sample: seq<real>, cmpVal: real)
    requires |sample| > 0
    ensures PctCmpVal(sample, cmpVal).value.0 * |sample| as real == CountAtMost(sample, cmpVal) as real
  {
    CountComplement(sample, x => x > cmpVal, x => x <= cmpVal);
  }

  // ---------------------------------------------------------------------
  // ROPE
  // ---------------------------------------------------------------------

  /** A rope with `rope[0] >= rope[1]` holds no sample. */
  lemma EmptyRopeHoldsNothing(sample: seq<real>, rope: Interval)
    ensures rope.lo >= rope.hi ==> CountInside(sample, rope.lo, rope.hi) == 0
  {
    if rope.lo >= rope.hi {
      CountNothing(sample, x => x > rope.lo && x < rope.hi);
    }
  }

  /** `pct_in_rope`: the fraction of samples strictly inside the rope. A
      rope with `rope[0] >= rope[1]` holds nothing. */
  function PctInRope(sample: seq<real>, rope: Interval): (r: Result<real, StatsError>)
    ensures r.Failure? <==> |sample| == 0
    ensures r.Success? ==> IsFraction(r.value)
    ensures r.Success? ==> r.value * |sample| as real == CountInside(sample, rope.lo, rope.hi) as real
    ensures r.Success? && rope.lo >= rope.hi ==> r.value == 0.0
  {
    if |sample| == 0 then Failure(ZeroDivision)
    else
      EmptyRopeHoldsNothing(sample, rope);
      Success(Fraction(CountInside(sample, rope.lo, rope.hi), |sample|))
  }

  /** Inside a proper rope means above its low end but not at or above its
      high end: the rope's share is `pct_gt(lo)` minus the share at or above `hi`. */
  lemma InsideIsAboveMinusAtLeast(sample: seq<real>, rope: Interval)
    requires rope.lo < rope.hi
    ensures CountInside(sample, rope.lo, rope.hi) + CountAtLeast(sample, rope.hi) == CountAbove(sample, rope.lo)
  {
    CountDisjointUnion(sample, x => x > rope.lo, x => x > rope.lo && x < rope.hi, x => x >= rope.hi);
  }

  // ---------------------------------------------------------------------
  // post_summary
  // ---------------------------------------------------------------------

  /** What `post_summary` records for a comparison value. */
  datatype CmpSummary = CmpSummary(cmpVal: real, pctLt: real, pctGt: real)

  /** What `post_summary` records for a rope. */
  datatype RopeSummary = RopeSummary(rope: Interval, pctInRope: real, decision: Label)

  /** The deterministic entries of `post_summary`. The highest-density
      interval comes from the statistics library and is an input here. */
  datatype PostSummary = PostSummary(credMass: real, hdi: Interval, cmp: Option<CmpSummary>, rope: Option<RopeSummary>)

  /** `post_summary(sample, cred_mass, cmp_val, rope)` given the library's hdi.
      An entry is present exactly when its argument was passed, and it
      records the fractions and the decision for that argument. Only the two
      fraction divisions can fail here. */
  function Summarize(sample: seq<real>, hdi: Interval, credMass: real := 0.95, cmpVal: Option<real> := None, rope: Option<Interval> := None): (r: Result<PostSummary, StatsError>)
    ensures r.Failure? <==> |sample| == 0 && (cmpVal.Some? || rope.Some?)
    ensures r.Success? ==> r.value.hdi == hdi && r.value.credMass == credMass
    ensures r.Success? ==> (r.value.cmp.Some? <==> cmpVal.Some?) && (r.value.rope.Some? <==> rope.Some?)
    ensures r.Success? && cmpVal.Some? ==>
      && r.value.cmp.value.cmpVal == cmpVal.value
      && IsFraction(r.value.cmp.value.pctGt)
      && r.value.cmp.value.pctLt + r.value.cmp.value.pctGt == 1.0
    ensures r.Success? && rope.Some? ==>
      && r.value.rope.value.rope == rope.value
      && IsFraction(r.value.rope.value.pctInRope)
      && (r.value.rope.value.decision == Equivalent <==> Inside(hdi, rope.value))
    ensures r.Success? && cmpVal.Some? ==>
      && PctCmpVal(sample, cmpVal.value).Success?
      && r.value.cmp.value.pctLt == PctCmpVal(sample, cmpVal.value).value.0
      && r.value.cmp.value.pctGt == PctCmpVal(sample, cmpVal.value).value.1
      && r.value.cmp.value.pctGt * |sample| as real == CountAbove(sample, cmpVal.value) as real
    ensures r.Success? && rope.Some? ==>
      && PctInRope(sample, rope.value).Success?
      && r.value.rope.value.pctInRope == PctInRope(sample, rope.value).value
      && r.value.rope.value.pctInRope * |sample| as real == CountInside(sample, rope.value.lo, rope.value.hi) as real
      && r.value.rope.value.decision == Decide(hdi, rope.value)
  {
    var cmp := CmpPart(sample, cmpVal);
    var rp := RopePart(sample, hdi, rope);
    if cmp.Failure? then Failure(cmp.error)
    else if rp.Failure? then Failure(rp.error)
    else Success(PostSummary(credMass, hdi, cmp.value, rp.value))
  }

  /** Called with the defaults (`cred_mass=0.95`, no comparison value, no
      ROPE), the summary records only the credible mass and the hdi. */
  lemma SummarizeDefaults(sample: seq<real>, hdi: Interval)
    ensures Summarize(sample, hdi) == Success(PostSummary(0.95, hdi, None, None))
  {
  }

  /** The `cmp_val` half of the summary, present exactly when a value is given. */
  function CmpPart(sample: seq<real>, cmpVal: Option<real>): (r: Result<Option<CmpSummary>, StatsError>)
    ensures r.Failure? <==> |sample| == 0 && cmpVal.Some?
    ensures r.Success? ==> (r.value.Some? <==> cmpVal.Some?)
    ensures r.Success? && cmpVal.Some? ==>
      && PctCmpVal(sample, cmpVal.value).Success?
      && r.value.value == CmpSummary(cmpVal.value, PctCmpVal(sample, cmpVal.value).value.0, PctCmpVal(sample, cmpVal.value).value.1)
  {
    match cmpVal
    case None => Success(None)
    case Some(v) =>
      match PctCmpVal(sample, v)
      case Failure(e) => Failure(e)
      case Success(p) => Success(Some(CmpSummary(v, p.0, p.1)))
  }

  /** The ROPE half of the summary, present exactly when a ROPE is given. */
  function RopePart(sample: seq<real>, hdi: Interval, rope: Option<Interval>): (r: Result<Option<RopeSummary>, StatsError>)
    ensures r.Failure? <==> |sample| == 0 && rope.Some?
    ensures r.Success? ==> (r.value.Some? <==> rope.Some?)
    ensures r.Success? && rope.Some? ==>
      && PctInRope(sample, rope.value).Success?
      && r.value.value == RopeSummary(rope.value, PctInRope(sample, rope.value).value, Decide(hdi, rope.value))
  {
    match rope
    case None => Success(None)
    case Some(i) =>
      match PctInRope(sample, i)
      case Failure(e) => Failure(e)
      case Success(p) => Success(Some(RopeSummary(i, p, Decide(hdi, i))))
  }

  // ---------------------------------------------------------------------
  // Sign test
  // ---------------------------------------------------------------------

  /** `[sum(a < b), sum(a > b)]`: positions where A scores lower, and higher. */
  datatype WinCounts = WinCounts(aLower: nat, aHigher: nat)

  /** numpy broadcasting of two one-dimensional score vectors: equal lengths
      pair up, a single score is repeated against the other vector, and any
      other pair of lengths is an error. */
  function Broadcast(a: seq<real>, b: seq<real>): (r: Option<(seq<real>, seq<real>)>)
    ensures r.Some? <==> |a| == |b| || |a| == 1 || |b| == 1
    ensures r.Some? ==> |r.value.0| == |r.value.1|
    ensures r.Some? ==> |r.value.0| == if |a| == |b| || |b| == 1 then |a| else |b|
    ensures r.Some? && |a| == |b| ==> r.value == (a, b)
    ensures r.Some? && |a| != |b| && |a| == 1 ==>
      r.value.1 == b && forall i :: 0 <= i < |b| ==> r.value.0[i] == a[0]
    ensures r.Some? && |a| != |b| && |b| == 1 ==>
      r.value.0 == a && forall i :: 0 <= i < |a| ==> r.value.1[i] == b[0]
  {
    if |a| == |b| then Some((a, b))
    else if |a| == 1 then Some((seq(|b|, _ => a[0]), b))
    else if |b| == 1 then Some((a, seq(|a|, _ => b[0])))
    else None
  }

  /** The three ways two scores at one position compare. */
  datatype Comparison = Lt | Gt | Eq

  /** Whether `x` compares to `y` as `c` says. */
  predicate Compares(c: Comparison, x: real, y: real) {
    match c
    case Lt => x < y
    case Gt => x > y
    case Eq => x == y
  }

  /** The positions of two aligned vectors whose scores compare as `c`:
      `Where(Lt, a, b)` are the positions where A scores lower. */
  function Where(c: Comparison, a: seq<real>, b: seq<real>): set<int>
    requires |a| == |b|
  {
    set i | 0 <= i < |a| && Compares(c, a[i], b[i])
  }

  /** Extending two aligned vectors by one position adds that position to
      the positions that compare as `c` exactly when its scores do. */
  lemma TallyStep(c: Comparison, a: seq<real>, b: seq<real>)
    requires |a| == |b| && |a| > 0
    ensures var m := |a| - 1;
      |Where(c, a, b)| == |Where(c, a[..m], b[..m])| + (if Compares(c, a[m], b[m]) then 1 else 0)
  {
    var m := |a| - 1;
    var a', b' := a[..m], b[..m];
    var before, after := Where(c, a', b'), Where(c, a, b);
    assert forall i :: 0 <= i < m ==> a'[i] == a[i] && b'[i] == b[i];
    assert m !in before;
    assert forall i :: i in after && i != m ==> i in before;
    assert forall i :: i in before ==> i in after;
    if Compares(c, a[m], b[m]) {
      assert after == before + {m};
    } else {
      assert after == before;
    }
  }

  /** Number of ties, `sum(a == b)`. */
  function Ties(a: seq<real>, b: seq<real>): (n: nat)
    requires |a| == |b|
    ensures n == |Where(Eq, a, b)|
  {
    if |a| == 0 then
      assert Where(Eq, a, b) == {};
      0
    else
      var m := |a| - 1;
      TallyStep(Eq, a, b);
      Ties(a[..m], b[..m]) + (if a[m] == b[m] then 1 else 0)
  }

  /** Strict wins each way over aligned vectors, `sum(a < b)` and
      `sum(a > b)`: every position is a win for one side or a tie, and ties
      are in neither count. */
  function Wins(a: seq<real>, b: seq<real>): (w: WinCounts)
    requires |a| == |b|
    ensures w.aLower == |Where(Lt, a, b)| && w.aHigher == |Where(Gt, a, b)|
    ensures w.aLower + w.aHigher + Ties(a, b) == |a|
  {
    if |a| == 0 then
      assert Where(Lt, a, b) == {} && Where(Gt, a, b) == {};
      WinCounts(0, 0)
    else
      var m := |a| - 1;
      var rest := Wins(a[..m], b[..m]);
      TallyStep(Lt, a, b);
      TallyStep(Gt, a, b);
      WinCounts(rest.aLower + (if a[m] < b[m] then 1 else 0), rest.aHigher + (if a[m] > b[m] then 1 else 0))
  }

  /** Exchanging the two vectors exchanges the two counts. */
  lemma {:induction false} WinsSwap(a: seq<real>, b: seq<real>)
    requires |a| == |b|
    ensures Wins(b, a) == WinCounts(Wins(a, b).aHigher, Wins(a, b).aLower)
  {
    if |a| > 0 {
      var m := |a| - 1;
      WinsSwap(a[..m], b[..m]);
    }
  }

  /** What the win counts of the broadcast vectors count, in terms of the
      original vectors. */
  lemma BroadcastWins(a: seq<real>, b: seq<real>)
    requires Broadcast(a, b).Some?
    ensures var w := Wins(Broadcast(a, b).value.0, Broadcast(a, b).value.1);
      && (|a| == |b| ==> w.aLower == |Where(Lt, a, b)| && w.aHigher == |Where(Gt, a, b)|)
      && (|a| != |b| && |a| == 1 ==>
           && w.aLower == |set i | 0 <= i < |b| && a[0] < b[i]|
           && w.aHigher == |set i | 0 <= i < |b| && a[0] > b[i]|)
      && (|a| != |b| && |b| == 1 ==>
           && w.aLower == |set i | 0 <= i < |a| && a[i] < b[0]|
           && w.aHigher == |set i | 0 <= i < |a| && a[i] > b[0]|)
  {
    var x, y := Broadcast(a, b).value.0, Broadcast(a, b).value.1;
    if |a| != |b| && |a| == 1 {
      assert Where(Lt, x, y) == set i | 0 <= i < |b| && a[0] < b[i];
      assert Where(Gt, x, y) == set i | 0 <= i < |b| && a[0] > b[i];
    } else if |a| != |b| && |b| == 1 {
      assert Where(Lt, x, y) == set i | 0 <= i < |a| && a[i] < b[0];
      assert Where(Gt, x, y) == set i | 0 <= i < |a| && a[i] > b[0];
    }
  }

  /** The win counts `micro_s_test` and `macro_s_test` pass to the binomial
      test; both compute them with the same expression, broadcasting a
      single score against every score of the other side. */
  function SignCounts(a: seq<real>, b: seq<real>): (r: Result<WinCounts, StatsError>)
    ensures r.Failure? <==> |a| != |b| && |a| != 1 && |b| != 1
    ensures r.Success? && |a| == |b| ==> r.value.aLower == |Where(Lt, a, b)| && r.value.aHigher == |Where(Gt, a, b)|
    ensures r.Success? && |a| != |b| && |a| == 1 ==>
      && r.value.aLower == |set i | 0 <= i < |b| && a[0] < b[i]|
      && r.value.aHigher == |set i | 0 <= i < |b| && a[0] > b[i]|
    ensures r.Success? && |a| != |b| && |b| == 1 ==>
      && r.value.aLower == |set i | 0 <= i < |a| && a[i] < b[0]|
      && r.value.aHigher == |set i | 0 <= i < |a| && a[i] > b[0]|
  {
    match Broadcast(a, b)
    case None => Failure(ShapeMismatch)
    case Some((x, y)) =>
      BroadcastWins(a, b);
      Success(Wins(x, y))
  }

  /** The sign test is symmetric: exchanging A and B exchanges the counts. */
  lemma SignCountsSwap(a: seq<real>, b: seq<real>)
    requires |a| == |b| || |a| == 1 || |b| == 1
    ensures SignCounts(b, a) == Success(WinCounts(SignCounts(a, b).value.aHigher, SignCounts(a, b).value.aLower))
  {
    var x, y := Broadcast(a, b).value.0, Broadcast(a, b).value.1;
    assert Broadcast(b, a) == Some((y, x));
    WinsSwap(x, y);
  }

  /** Scores [1, 1, 1, 0] against [0, 0, 1, 1]: A is higher twice, lower once,
      and the tie at the third position counts for neither. */
  lemma SignCountsExample()
    ensures SignCounts([1.0, 1.0, 1.0, 0.0], [0.0, 0.0, 1.0, 1.0]) == Success(WinCounts(1, 2))
  {
    var a, b := [1.0, 1.0, 1.0, 0.0], [0.0, 0.0, 1.0, 1.0];
    assert Wins(a[3..], b[3..]) == WinCounts(1, 0);
    assert Wins(a[2..], b[2..]) == WinCounts(1, 0);
    assert Wins(a[1..], b[1..]) == WinCounts(1, 1);
  }
}

=== FILE: wrappers.dfy ===
/** Optional values and results with an error case, shared by the other modules. */
module Wrappers {

  /** A value that may be absent, as Python's `None` default arguments are. */
  datatype Option<+T> = None | Some(value: T)

  /** Either a computed value or the error the source would raise. */
  datatype Result<+R, +E> = Success(value: R) | Failure(error: E)
}
